=== FILE: README.md ===
# ros_control_client_py in Dafny

This project models the client-side logic of `ros_control_client_py`, a Python
client for robot joint controllers reached over ROS actions and services. It
covers the parts that decide what happens, with the transport left out:

- **The future** (`futures.dfy`, module `Futures`). A single-assignment result
  holder can be pending, resolved with a result or an exception, or cancelled.
  It keeps an ordered, duplicate-free list of done-callbacks. Every operation is
  a pure step function that returns the new future and its effect on the caller:
  the callbacks it called, in order, or the exception it raised.
- **The action transition bridge** (`action_bridge.dfy`, module `ActionBridge`).
  Each command future remembers the last comm-state of its goal (initially
  PENDING). It ignores repeats and runs its done handler only on a change into
  DONE. The handler is a parameter. The bridge is also run over whole
  notification streams to count how often the handler is reached.
- **The three command futures**, each with its own done handler:
  - trigger (`trigger_client.dfy`);
  - set-position (`set_position_client.dfy`), which stores the position command
    and echoes it in its failure;
  - follow-trajectory (`trajectory_client.dfy`), which decides success by error
    code and does not treat REJECTED as a cancellation.
- **Trajectory conversion and padding** (`trajectory_util.dfy`).
  - `or_to_ros_trajectory` validates each waypoint in a fixed order and
    integrates time.
  - It drops a waypoint that lies less than the tolerance past the last retained
    one.
  - It checks the total duration.
  - The retained waypoints are characterised declaratively (`Retained`), and that
    characterisation is proved to have exactly one solution.
  - `pad_ros_trajectory` adds the joints a caller requires.
- **Controller switching and joint-state filtering** (`controller_client.dfy`).
  - The switch plan: the required resources, the controllers to start and the
    conflicting controllers to stop.
  - The switcher context with its revert.
  - The joint-state callback's name filter.

Inputs that come from outside the package are parameters:

- goal handles (comm-state, terminal state, result);
- service replies (a boolean);
- the controller list;
- OpenRAVE queries (used DOFs, joint names, extracted waypoint values, current
  joint values, the trajectory's duration, whether robot and trajectory share an
  environment);
- the robot's name-to-DOF table.

Requests the code would send are returned as values. Time is an exact `real`.

Notes on fidelity:

- `_set_done` raises `InternalError`, a name the module never defines, so in
  Python the refusal surfaces as a NameError. The model records it as the fault
  `AlreadyDone`.
- `set_result`, `set_exception` and `set_cancelled` store their value before the
  done check, and the model keeps that order. So a late `set_cancelled` on a
  resolved future raises, yet leaves it reporting cancelled
  (`LateCancelOverridesResult`).
- A goal handle may have no result. Each done handler reads a field of the result
  before it resolves anything, so it raises (`ResultMissing`). Because
  `on_transition` raises before `self._prev_state = state`, the last comm-state
  is then not updated.
- Where `util.py` iterates over a Python `set`, the model picks the order of
  first occurrence: the DOF intersection (util.py:47) and the missing joint names
  (util.py:110, 125). Contracts speak of membership, not of that order.
- Velocities and accelerations are filled per waypoint (util.py:91-92): one
  waypoint may carry them while the next has empty lists.
- A tolerance of zero passes the check at util.py:35, but the strict comparison
  at util.py:97 can then never hold, so every conversion with tolerance zero
  fails with the duration mismatch. The model keeps this behaviour.

## Model

| member | source | states |
|---|---|---|
| Futures.NewFuture | ros_control_client_py/src/ros_control_client_py/futures.py:18-33 | a fresh future is valid, not done, not cancelled, has no callbacks, and both accessors report a timeout |
| Futures.ResultOf | ros_control_client_py/src/ros_control_client_py/futures.py:62-72 | `result()` times out exactly when not done, raises CancelledError exactly when cancelled, raises the stored exception exactly when done, not cancelled and holding one, and otherwise returns the stored result (possibly None) |
| Futures.ExceptionOf | ros_control_client_py/src/ros_control_client_py/futures.py:87-97 | `exception()` never raises the stored exception; it times out exactly when not done, raises CancelledError exactly when cancelled, and otherwise returns the stored exception or None |
| Futures.IsDone | ros_control_client_py/src/ros_control_client_py/futures.py:35-38 | `done()` is true exactly when `result()` and `exception()`, once their wait ends, do not raise TimeoutError |
| Futures.IsCancelled | ros_control_client_py/src/ros_control_client_py/futures.py:44-47 | `cancelled()` holds only for a done future, and exactly when both accessors raise CancelledError |
| Futures.AccessorsAgree | ros_control_client_py/src/ros_control_client_py/futures.py:62-97 | `result()` raises exactly the exception `exception()` returns, returns a value exactly when `exception()` returns None, and both agree on timeout and cancellation |
| Futures.MarkDone | ros_control_client_py/src/ros_control_client_py/futures.py:154-161 | `_set_done` refuses a future that is already done with the already-done fault, and otherwise hands back the registered callbacks, in order, to be called; either way the future ends done and nothing else changed |
| Futures.SetResult | ros_control_client_py/src/ros_control_client_py/futures.py:139-167 | the future is done and holds the result; a pending future calls its registered callbacks in order and then reports that result and no exception; an already done one raises |
| Futures.SetException | ros_control_client_py/src/ros_control_client_py/futures.py:149-167 | the future is done and holds the exception; a pending future calls its callbacks and then `result()` raises it and `exception()` returns it; an already done one raises |
| Futures.SetCancelled | ros_control_client_py/src/ros_control_client_py/futures.py:144-167 | the future is done and reports cancelled to both accessors, even when the call raises because it was already done; result, exception and callbacks are untouched |
| Futures.AddDoneCallback | ros_control_client_py/src/ros_control_client_py/futures.py:115-126 | on a done future `fn` is called once at once and not stored; on a pending one a registered `fn` raises with the list unchanged, otherwise `fn` is appended |
| Futures.FirstIndex | ros_control_client_py/src/ros_control_client_py/futures.py:135 | the position `list.remove` deletes: an occurrence of the element with none before it |
| Futures.RemoveFirst | ros_control_client_py/src/ros_control_client_py/futures.py:135 | `list.remove` deletes exactly the first occurrence and keeps every other element in its order, so the list shrinks by one |
| Futures.RemoveFirstTakesOneOccurrence | ros_control_client_py/src/ros_control_client_py/futures.py:135 | removal takes away one occurrence of the element and no other element |
| Futures.RemoveDoneCallback | ros_control_client_py/src/ros_control_client_py/futures.py:133-137 | an unregistered `fn` raises with the future unchanged; for a registered one the first occurrence is deleted, the other callbacks keep their registration order, `fn` is no longer present when the list was duplicate-free, and nothing else changes |
| Futures.RemoveFirstKeepsNoDuplicates | ros_control_client_py/src/ros_control_client_py/futures.py:135 | removal keeps a duplicate-free callback list duplicate-free |
| Futures.OperationsKeepValid | ros_control_client_py/src/ros_control_client_py/futures.py:115-167 | every operation, raising or not, keeps the callbacks distinct and a pending future free of outcomes |
| Futures.AddThenRemoveRestores | ros_control_client_py/src/ros_control_client_py/futures.py:115-137 | removing a callback right after adding it to a pending future gives back the original future |
| Futures.RegisterAllAppends | ros_control_client_py/src/ros_control_client_py/futures.py:119-122 | distinct callbacks registered one by one end up in the list in registration order |
| Futures.ResolutionCallsEachOnceInOrder | ros_control_client_py/src/ros_control_client_py/futures.py:160-167 | resolving a future calls each callback registered before, exactly once and in registration order |
| Futures.LateCallbackCalledOnce | ros_control_client_py/src/ros_control_client_py/futures.py:116-126 | a callback added after resolution is called once, immediately, and never stored |
| Futures.LateCancelOverridesResult | ros_control_client_py/src/ros_control_client_py/futures.py:144-158 | resolving twice raises, and a late cancel turns a delivered result into a cancellation |
| ActionBridge.NewBridge | ros_control_client_py/src/ros_control_client_py/forcetorque_sensor_client.py:13-20 | a command future starts pending with no callbacks and PENDING as its last comm-state |
| ActionBridge.Apply | ros_control_client_py/src/ros_control_client_py/forcetorque_sensor_client.py:58-68 | a handler's decision becomes `set_result`, `set_exception` or `set_cancelled`, with the outcome `result()` then reports; a handler that raises leaves the future untouched |
| ActionBridge.OnTransition | ros_control_client_py/src/ros_control_client_py/forcetorque_sensor_client.py:25-43 | a repeated comm-state changes nothing; anything but a change into DONE only records the state; a change into DONE runs the handler, raising on a missing result; the last state is recorded exactly when the callback returns normally; only a change into DONE touches the future |
| ActionBridge.ChangeIntoDoneResolves | ros_control_client_py/src/ros_control_client_py/forcetorque_sensor_client.py:36-43 | a change into DONE with a result resolves a pending future, calls its callbacks in order and records DONE |
| ActionBridge.Track | ros_control_client_py/src/ros_control_client_py/forcetorque_sensor_client.py:33-43 | the duplicate filter ends on the last comm-state and reaches the handler at most once per notification |
| ActionBridge.TrackCountsDoneEdges | ros_control_client_py/src/ros_control_client_py/forcetorque_sensor_client.py:20-43 | starting from PENDING, the handler is reached once per position holding DONE right after a state that is not DONE |
| ActionBridge.RunBridge | ros_control_client_py/src/ros_control_client_py/forcetorque_sensor_client.py:25-43 | over a stream, raising invocations never outnumber handler calls, handler calls never outnumber notifications, and a done future stays done |
| ActionBridge.RunFollowsTrack | ros_control_client_py/src/ros_control_client_py/forcetorque_sensor_client.py:25-43 | when no invocation raises, the bridge calls the handler exactly as often as the duplicate filter predicts and ends on the last comm-state |
| ActionBridge.RedeliveredDoneIsNoop | ros_control_client_py/src/ros_control_client_py/forcetorque_sensor_client.py:36-37 | once DONE is recorded, further DONE notifications change nothing and call nothing |
| ActionBridge.ResolvesExactlyOnce | ros_control_client_py/src/ros_control_client_py/forcetorque_sensor_client.py:33-43 | when DONE is final, carries a result and the handler does not raise, a pending future is done at the end exactly when DONE was reported; the handler runs once, on the first DONE, and that notification alone decides the future |
| TriggerClient.NewTriggerFuture | ros_control_client_py/src/ros_control_client_py/forcetorque_sensor_client.py:13-20 | a trigger future starts pending with PENDING recorded |
| TriggerClient.TriggerOnDone | ros_control_client_py/src/ros_control_client_py/forcetorque_sensor_client.py:58-68 | SUCCEEDED with success delivers the result; REJECTED, RECALLED and PREEMPTED cancel; every other case fails with the terminal state and success flag (corrected handler, see Findings) |
| TriggerClient.TriggerOnDoneAsWritten | ros_control_client_py/src/ros_control_client_py/forcetorque_sensor_client.py:53-56 | the handler as written raises on every call before any outcome is set |
| TriggerClient.TriggerAsWrittenNeverResolves | ros_control_client_py/src/ros_control_client_py/forcetorque_sensor_client.py:41-56 | with the handler as written, no notification stream resolves a pending trigger future, and every handler call raises |
| TriggerClient.TriggerOnTransition | ros_control_client_py/src/ros_control_client_py/forcetorque_sensor_client.py:25-68 | the trigger transition callback with the corrected handler (see Findings; as written it raises on every change into DONE with a result): ignores repeats; on a change into DONE with a result a pending future always becomes done and its callbacks are called; it holds the result exactly on SUCCEEDED with success, is cancelled exactly on REJECTED, RECALLED or PREEMPTED, and raises TriggerFailed with the terminal state and success flag exactly in every other case |
| TriggerClient.TriggerResolvesOnce | ros_control_client_py/src/ros_control_client_py/forcetorque_sensor_client.py:25-68 | with the corrected handler (see Findings), a fresh trigger future fed a stream where DONE is final and carries a result never raises, and is done exactly when DONE was reported |
| SetPositionClient.NewSetPositionFuture | ros_control_client_py/src/ros_control_client_py/set_position_client.py:15-27 | the future holds the command given at construction and starts pending with PENDING recorded |
| SetPositionClient.SetPositionOnDone | ros_control_client_py/src/ros_control_client_py/set_position_client.py:56-77 | SUCCEEDED with success delivers the result; REJECTED, RECALLED and PREEMPTED cancel; otherwise the failure carries the stored command as both requested and executed |
| SetPositionClient.SameClassificationAsTrigger | ros_control_client_py/src/ros_control_client_py/set_position_client.py:67-77 | set-position and trigger handlers reach the same kind of outcome for every terminal state and success flag |
| SetPositionClient.SetPositionOnTransition | ros_control_client_py/src/ros_control_client_py/set_position_client.py:32-50 | the set-position transition callback keeps the command and ignores repeats; on a change into DONE with a result a pending future always becomes done and its callbacks are called; it holds the result exactly on SUCCEEDED with success, is cancelled exactly on REJECTED, RECALLED or PREEMPTED, and raises SetPositionFailed echoing the command as requested and executed exactly in every other case |
| TrajectoryClient.NewTrajectoryFuture | ros_control_client_py/src/ros_control_client_py/trajectory_client.py:13-29 | the future holds the requested trajectory, and the executed one has the requested joint names and no points |
| TrajectoryClient.TrajectoryOnDone | ros_control_client_py/src/ros_control_client_py/trajectory_client.py:95-123 | SUCCEEDED with error code SUCCESSFUL delivers the executed trajectory; only PREEMPTED and RECALLED cancel; REJECTED, ABORTED, LOST and unsuccessful SUCCEEDED fail with the error code and both trajectories |
| TrajectoryClient.CancellationDiffersOnlyOnRejected | ros_control_client_py/src/ros_control_client_py/trajectory_client.py:118-123 | the trajectory handler cancels only where the trigger handler does, and the two differ on REJECTED alone, which the trajectory handler reports as a failure |
| TrajectoryClient.TrajectoryOnTransition | ros_control_client_py/src/ros_control_client_py/trajectory_client.py:61-78 | the trajectory transition callback keeps both trajectories and ignores repeats; on a change into DONE with a result a pending future always becomes done and its callbacks are called; it holds the executed trajectory exactly on SUCCEEDED with error code SUCCESSFUL, is cancelled exactly on PREEMPTED or RECALLED, and raises TrajectoryExecutionFailed with both trajectories exactly on REJECTED, ABORTED, LOST or an unsuccessful SUCCEEDED |
| TrajectoryUtil.Fault | ros_control_client_py/src/ros_control_client_py/util.py:65-71 | a waypoint is refused for a missing delta time first, then for missing joint values, then for accelerations without velocities, and accepted otherwise |
| TrajectoryUtil.PointOf | ros_control_client_py/src/ros_control_client_py/util.py:88-95 | a message waypoint has the positions and the given time; velocities and accelerations are copied when present and empty when absent |
| TrajectoryUtil.RetainedDropStep | ros_control_client_py/src/ros_control_client_py/util.py:80-83 | skipping a waypoint less than the tolerance past the last retained one keeps the retention conditions |
| TrajectoryUtil.RetainedKeepStep | ros_control_client_py/src/ros_control_client_py/util.py:80-95 | retaining the first waypoint, or one at least the tolerance past the last retained one, keeps the retention conditions |
| TrajectoryUtil.SelectDofs | ros_control_client_py/src/ros_control_client_py/util.py:43-47 | without a filter all used DOFs are converted; with one, exactly the used DOFs in the filter, each once |
| TrajectoryUtil.ConvertWaypoints | ros_control_client_py/src/ros_control_client_py/util.py:54-95 | a failure names the first malformed waypoint, skipped ones included; a success means every waypoint is well formed, the total time is the sum of all delta times, and the points are exactly the retained waypoints at their cumulative times |
| TrajectoryUtil.OrToRosTrajectory | ros_control_client_py/src/ros_control_client_py/util.py:19-98 | a negative tolerance and an environment mismatch are refused first; a waypoint error is reported exactly when some waypoint is malformed; for well-formed waypoints the conversion succeeds exactly when the integrated time is within the tolerance of the duration, and otherwise fails with the duration mismatch that the assertion at line 97 raises; with a tolerance of zero it always fails; the joint names follow the selected DOFs, and the points are the retained waypoints |
| TrajectoryUtil.RetainedUnique | ros_control_client_py/src/ros_control_client_py/util.py:73-85 | the retention conditions determine the retained waypoints: two index lists that meet them are equal |
| TrajectoryUtil.DenseSamplesExample | ros_control_client_py/src/ros_control_client_py/util.py:73-85 | for samples at cumulative times 0, 0.001, 0.5, 0.505 and 1.0 with the default tolerance, exactly the waypoints at 0, 0.5 and 1.0 are retained |
| TrajectoryUtil.MissingNames | ros_control_client_py/src/ros_control_client_py/util.py:110 | the missing names are exactly the required names absent from the trajectory, each once |
| TrajectoryUtil.PadTrajectory | ros_control_client_py/src/ros_control_client_py/util.py:100-126 | the joint names become the old names followed by the missing ones; the waypoint count is unchanged; each non-empty position list gains the missing joints' current values, each non-empty derivative list gains zeros, and empty lists stay empty |
| TrajectoryUtil.PadIdempotent | ros_control_client_py/src/ros_control_client_py/util.py:110-125 | padding twice with the same names equals padding once |
| TrajectoryUtil.PadKeepsWellFormed | ros_control_client_py/src/ros_control_client_py/util.py:111-125 | padding a trajectory whose non-empty lists match its joint names keeps them matched |
| TrajectoryUtil.PadExample | ros_control_client_py/src/ros_control_client_py/util.py:110-126 | padding joints a and b to a, b and c appends c with its current value and leaves empty derivative lists empty |
| ControllerClient.RequiredResources | ros_control_client_py/src/ros_control_client_py/controller_client.py:44-48 | the required resources are exactly those claimed by some listed controller whose name is requested |
| ControllerClient.NamesWhere | ros_control_client_py/src/ros_control_client_py/controller_client.py:51-65 | the selected names are exactly the names of the listed controllers that satisfy the condition |
| ControllerClient.NamesWhereAppend | ros_control_client_py/src/ros_control_client_py/controller_client.py:51-65 | selection distributes over concatenation, so the lists keep the controller list's order |
| ControllerClient.NamesWhereSingle | ros_control_client_py/src/ros_control_client_py/controller_client.py:51-65 | one controller is selected exactly when it satisfies the condition |
| ControllerClient.StartList | ros_control_client_py/src/ros_control_client_py/controller_client.py:51-56 | the start list holds exactly the requested listed controllers that are not running |
| ControllerClient.StopList | ros_control_client_py/src/ros_control_client_py/controller_client.py:59-65 | the stop list holds exactly the non-requested running controllers that claim a required resource |
| ControllerClient.StartStopDisjoint | ros_control_client_py/src/ros_control_client_py/controller_client.py:51-65 | no controller is both started and stopped |
| ControllerClient.StoppedConflictsWithRequested | ros_control_client_py/src/ros_control_client_py/controller_client.py:44-65 | every stopped controller is running and shares a resource with some requested controller |
| ControllerClient.Switch | ros_control_client_py/src/ros_control_client_py/controller_client.py:29-75 | the request sent is the start and stop plan; a successful reply returns both lists and a failed one raises SwitchError |
| ControllerClient.NewSwitcher | ros_control_client_py/src/ros_control_client_py/controller_client.py:10-21 | the switcher requests exactly the given names and remembers no switch |
| ControllerClient.Enter | ros_control_client_py/src/ros_control_client_py/controller_client.py:23-24 | entering sends the plan and, on success, remembers the started and stopped lists; a failed switch raises and leaves the switcher as it was |
| ControllerClient.Unswitch | ros_control_client_py/src/ros_control_client_py/controller_client.py:77-94 | without remembered lists it raises ROSControlError and sends nothing; otherwise it requests to start the stopped and stop the started controllers, forgets both lists whatever the reply, and raises SwitchError exactly when the revert fails |
| ControllerClient.EnterThenUnswitchReverts | ros_control_client_py/src/ros_control_client_py/controller_client.py:23-94 | exiting after a successful switch sends the inverse request and returns the switcher to its fresh state, so a second exit raises |
| ControllerClient.FailedEnterThenUnswitchRaises | ros_control_client_py/src/ros_control_client_py/controller_client.py:23-82 | calling `unswitch` after a switch that raised (Python does not run `__exit__` then) raises ROSControlError without sending a request |
| ControllerClient.FilterJointState | ros_control_client_py/src/ros_control_client_py/controller_client.py:137-153 | the index and value lists sent to the robot have equal length, at most that of the shorter of names and positions |
| ControllerClient.FilterJointStateProvenance | ros_control_client_py/src/ros_control_client_py/controller_client.py:144-148 | every emitted pair comes from one paired name the robot maps: its DOF index and that name's position |
| ControllerClient.FilterJointStateSingle | ros_control_client_py/src/ros_control_client_py/controller_client.py:144-148 | a one-joint message sets that joint exactly when its name is mapped |
| ControllerClient.FilterJointStateAppend | ros_control_client_py/src/ros_control_client_py/controller_client.py:144-148 | filtering distributes over messages laid end to end, so pairs keep message order |
| ControllerClient.FilterJointStateAllMapped | ros_control_client_py/src/ros_control_client_py/controller_client.py:144-148 | when every paired name is mapped, the values are the positions cut to the shorter length |
| ControllerClient.FilterJointStateNoneMapped | ros_control_client_py/src/ros_control_client_py/controller_client.py:144-148 | when no paired name is mapped, nothing is set |

## Left out

- Locking and blocking. The `RLock` and `Condition` of the future, and the wait in `result()` and `exception()` (which happens even on a done future), only serialise steps or block. The model gives the classification made after the wait. Because `result()` and `exception()` wait on the condition even when the future is done (futures.py:63, futures.py:88), a call without a timeout on a done future never returns, and a call with a timeout always waits the full timeout; the model does not show either.
- `Future.cancel` and the subclasses' `cancel`. The first raises NotImplementedError and the others forward to the goal handle, which is foreign I/O.
- Callback exceptions. `_set_done` logs and swallows an exception a callback raises, and logging is not modelled. A callback added to a done future is called outside the lock and its exception propagates; the model records only that it is called.
- The `on_feedback` of the trigger and set-position futures. Each is a no-op with no state to change.
- `TrajectoryFuture.on_feedback`. It reads the undefined name `actual` the first time it runs, and it relies on ROS time arithmetic. So the executed trajectory stays as constructed: the requested joint names and no points.
- `TrajectoryFuture.requested` and `partial_result`. They return deep copies, and every model value is immutable already.
- Transport. Action and service clients, `wait_for_server`, `send_goal`, service proxies, the joint-state subscriber and `ControllerManagerClient` construction are left out. Goal handles, service replies and the controller list are parameters, and requests are returned as values.
- In-place update by `pad_ros_trajectory`. It changes the caller's message and returns that same object (util.py:117-126). The model returns a new value, so a caller that keeps the old message does not see the padding.
- Aliasing of the executed trajectory's joint names. `TrajectoryFuture` deep-copies the requested trajectory but gives the executed one the caller's own joint-name list (trajectory_client.py:27-29), so a later change by the caller shows up in it. Model values are immutable, so the executed trajectory keeps the names it was built with.
- OpenRAVE queries (`ExtractUsedIndices`, `ExtractJointValues`, `ExtractDeltaTime`, `GetJointFromDOFIndex`, `GetJoint(...).GetValue`, `GetDuration`, `SetDOFValues`, environment comparison). Their results are parameters.
- `find_resource`: a catkin workspace lookup.
- Log messages and exception texts, including the format-argument mismatch of the skipped-waypoint warning (util.py:81), which logging reports without raising.
- Floating-point rounding in time integration and in the duration check. Time is an exact `real`, and `Duration.from_sec` is the identity.
- Python set iteration order. The DOF intersection and the missing names keep first-occurrence order, and the contracts speak only of membership.
- ControllerClient.Switch: the switch service's reply is taken as the boolean the code tests with `if ok:`. The model does not decide how a reply object converts to a boolean.
- FilterJointState: its own contract states only the lengths. Which pairs are emitted, and in what order, is stated by `FilterJointStateProvenance`, `FilterJointStateSingle` and `FilterJointStateAppend`.

## Findings

| source | as written | input that shows it | evidently intended | confidence | as-written member | corrected member |
|---|---|---|---|---|---|---|
| ros_control_client_py/src/ros_control_client_py/forcetorque_sensor_client.py:53-56 | `_on_done` builds `TriggerFailed(message)`, but `TriggerFailed.__init__` requires `message`, `requested` and `executed`, so every call raises TypeError before any outcome is set and the trigger future never resolves | any change into DONE with a result, e.g. terminal state SUCCEEDED with `success` True | build the exception without the missing payloads (a trigger has none) and resolve as the classification says | high, not executed | TriggerClient.TriggerOnDoneAsWritten, TriggerClient.TriggerAsWrittenNeverResolves | TriggerClient.TriggerOnDone |

=== FILE: action_bridge.dfy ===
/** The bridge from an action goal's comm-state notifications to its future.
    Each command future remembers the last comm-state it saw (initially
    PENDING), ignores a notification that repeats it, and runs its done handler
    only on a change into DONE; the handler reads the terminal state and the
    action result and resolves the future. The three command clients share this
    logic and differ only in their done handler, which is a parameter here. */
module ActionBridge {
  import opened Base
  import opened Futures

  /** The client-side lifecycle stage of a goal, as the action library reports it. */
  datatype CommState =
    | WaitingForGoalAck | Pending | Active | WaitingForResult | WaitingForCancelAck
    | Recalling | Preempting | Done | Lost

  /** Why a goal ended; the action library reports one of these six once DONE. */
  datatype TerminalState = Recalled | Rejected | Preempted | Aborted | Succeeded | LostGoal

  /** What a done handler decides: resolve with a value, with an exception, as
      cancelled, or raise before touching the future. */
  datatype Handling<T, E> = Deliver(value: T) | Fail(error: E) | Cancel | Crash(fault: Fault)

  /** A command future together with the last comm-state it observed. */
  datatype Bridge<T, E, C> = Bridge(future: Future<T, E, C>, prev: CommState)

  /** One transition notification: the goal handle's comm-state, terminal state and
      result; the result is absent when the goal has not received one. */
  datatype Notification<R> = Notification(comm: CommState, terminal: TerminalState, result: Option<R>)

  /** The bridge after one notification, and the notification callback's effect. */
  datatype Transition<T, E, C> = Transition(bridge: Bridge<T, E, C>, effect: Effect<C>)

  /** A fresh command future: pending, with PENDING as its last comm-state. */
  function NewBridge<T, E, C(==)>(): (b: Bridge<T, E, C>)
    ensures !IsDone(b.future) && Valid(b.future) && b.future.callbacks == []
    ensures b.prev == Pending
  {
    Bridge(NewFuture(), Pending)
  }

  /** The done handler runs exactly on a change into DONE. */
  predicate CallsOnDone(prev: CommState, comm: CommState) {
    comm != prev && comm == Done
  }

  /** Carry out a handler's decision on the future. */
  function Apply<T, E, C>(f: Future<T, E, C>, h: Handling<T, E>): (r: Step<T, E, C>)
    ensures h.Crash? ==> r == Step(f, Raised(h.fault))
    ensures !h.Crash? ==> IsDone(r.future)
    ensures !h.Crash? && !IsDone(f) ==> r.effect == Called(f.callbacks)
    ensures !h.Crash? && IsDone(f) ==> r.effect == Raised(AlreadyDone)
    ensures h.Deliver? && Valid(f) && !IsDone(f) ==> ResultOf(r.future) == Returns(Some(h.value))
    ensures h.Fail? && Valid(f) && !IsDone(f) ==> ResultOf(r.future) == Raises(h.error)
    ensures h.Cancel? ==> ResultOf(r.future) == CancelledError
  {
    match h
    case Deliver(v) => SetResult(f, v)
    case Fail(e) => SetException(f, e)
    case Cancel => SetCancelled(f)
    case Crash(x) => Step(f, Raised(x))
  }

  /** The transition callback. A repeated comm-state changes nothing; a change into
      DONE runs the handler, which raises when the result is absent; the last
      comm-state is recorded only when the callback returns normally. */
  function OnTransition<R, T, E, C>(b: Bridge<T, E, C>, n: Notification<R>,
                                    onDone: (TerminalState, R) -> Handling<T, E>): (r: Transition<T, E, C>)
    ensures n.comm == b.prev ==> r == Transition(b, Called([]))
    ensures !CallsOnDone(b.prev, n.comm) ==> r == Transition(b.(prev := n.comm), Called([]))
    ensures CallsOnDone(b.prev, n.comm) && n.result.None? ==> r == Transition(b, Raised(ResultMissing))
    ensures CallsOnDone(b.prev, n.comm) && n.result.Some? ==>
              && r.bridge.future == Apply(b.future, onDone(n.terminal, n.result.value)).future
              && r.effect == Apply(b.future, onDone(n.terminal, n.result.value)).effect
    ensures r.effect.Raised? ==> r.bridge.prev == b.prev
    ensures !r.effect.Raised? ==> r.bridge.prev == n.comm
    ensures r.bridge.future != b.future ==> CallsOnDone(b.prev, n.comm)
  {
    if !CallsOnDone(b.prev, n.comm) then
      Transition(b.(prev := n.comm), Called([]))
    else
      match n.result
      case None => Transition(b, Raised(ResultMissing))
      case Some(res) =>
        var s := Apply(b.future, onDone(n.terminal, res));
        if s.effect.Raised? then Transition(b.(future := s.future), s.effect)
        else Transition(Bridge(s.future, n.comm), s.effect)
  }

  /** A pending future whose handler resolves it is done after the change into
      DONE, the registered callbacks are called in order, and DONE is recorded. */
  lemma ChangeIntoDoneResolves<R, T, E, C>(b: Bridge<T, E, C>, n: Notification<R>,
                                           onDone: (TerminalState, R) -> Handling<T, E>)
    requires !IsDone(b.future) && b.prev != Done && n.comm == Done
    requires n.result.Some? && !onDone(n.terminal, n.result.value).Crash?
    ensures IsDone(OnTransition(b, n, onDone).bridge.future)
    ensures OnTransition(b, n, onDone).effect == Called(b.future.callbacks)
    ensures OnTransition(b, n, onDone).bridge.prev == Done
  {
  }

  // ---------------------------------------------------------------------------
  // Streams of notifications

  /** The comm-states of a notification stream. */
  function Comms<R>(ns: seq<Notification<R>>): (cs: seq<CommState>)
    ensures |cs| == |ns|
    ensures forall i :: 0 <= i < |ns| ==> cs[i] == ns[i].comm
  {
    seq(|ns|, i requires 0 <= i < |ns| => ns[i].comm)
  }

  /** The duplicate filter alone: the last comm-state after `comms`, and how many
      times the done handler is reached, when every handler call returns. */
  function Track(prev: CommState, comms: seq<CommState>): (r: (CommState, nat))
    ensures |comms| == 0 ==> r.0 == prev
    ensures |comms| > 0 ==> r.0 == comms[|comms| - 1]
    ensures r.1 <= |comms|
    decreases |comms|
  {
    if |comms| == 0 then (prev, 0)
    else
      var rest := Track(comms[0], comms[1..]);
      (rest.0, rest.1 + if CallsOnDone(prev, comms[0]) then 1 else 0)
  }

  /** The number of positions of `comms` holding DONE right after a state that was
      not DONE, with `prev` standing before the first position. */
  function DoneEdges(prev: CommState, comms: seq<CommState>): nat
  {
    if |comms| == 0 then 0
    else
      var last := |comms| - 1;
      var before := if last == 0 then prev else comms[last - 1];
      DoneEdges(prev, comms[..last]) + if comms[last] == Done && before != Done then 1 else 0
  }

  lemma {:induction false} TrackAppend(prev: CommState, comms: seq<CommState>, c: CommState)
    ensures Track(prev, comms + [c]).1 ==
            Track(prev, comms).1 + if CallsOnDone(Track(prev, comms).0, c) then 1 else 0
    decreases |comms|
  {
    if |comms| > 0 {
      assert (comms + [c])[1..] == comms[1..] + [c];
      TrackAppend(comms[0], comms[1..], c);
    }
  }

  /** The duplicate filter reaches the done handler once per change into DONE, so
      a redelivered DONE never reaches it again. */
  lemma {:induction false} TrackCountsDoneEdges(prev: CommState, comms: seq<CommState>)
    ensures Track(prev, comms).1 == DoneEdges(prev, comms)
    decreases |comms|
  {
    if |comms| > 0 {
      var last := |comms| - 1;
      assert comms == comms[..last] + [comms[last]];
      TrackCountsDoneEdges(prev, comms[..last]);
      TrackAppend(prev, comms[..last], comms[last]);
    }
  }

  /** The outcome of feeding a notification stream to the callback: the final
      bridge, how many times the done handler was entered, and how many callback
      invocations raised. */
  datatype Run<T, E, C> = Run(bridge: Bridge<T, E, C>, onDoneCalls: nat, faults: nat)

  function RunBridge<R, T, E, C>(b: Bridge<T, E, C>, ns: seq<Notification<R>>,
                                 onDone: (TerminalState, R) -> Handling<T, E>): (r: Run<T, E, C>)
    ensures r.faults <= r.onDoneCalls <= |ns|
    ensures IsDone(b.future) ==> IsDone(r.bridge.future)
    decreases |ns|
  {
    if |ns| == 0 then Run(b, 0, 0)
    else
      var t := OnTransition(b, ns[0], onDone);
      var rest := RunBridge(t.bridge, ns[1..], onDone);
      Run(rest.bridge,
          rest.onDoneCalls + (if CallsOnDone(b.prev, ns[0].comm) then 1 else 0),
          rest.faults + (if t.effect.Raised? then 1 else 0))
  }

  /** When no callback invocation raises, the bridge enters the done handler
      exactly as often as the duplicate filter predicts, and ends on the last
      comm-state. */
  lemma {:induction false} RunFollowsTrack<R, T, E, C>(b: Bridge<T, E, C>, ns: seq<Notification<R>>,
                                                      onDone: (TerminalState, R) -> Handling<T, E>)
    requires RunBridge(b, ns, onDone).faults == 0
    ensures RunBridge(b, ns, onDone).onDoneCalls == Track(b.prev, Comms(ns)).1
    ensures RunBridge(b, ns, onDone).bridge.prev == Track(b.prev, Comms(ns)).0
    decreases |ns|
  {
    if |ns| > 0 {
      var t := OnTransition(b, ns[0], onDone);
      assert Comms(ns)[1..] == Comms(ns[1..]);
      RunFollowsTrack(t.bridge, ns[1..], onDone);
    }
  }

  /** DONE is final in the goal lifecycle: once reported, every later notification
      reports DONE again. */
  predicate DoneIsFinal<R>(ns: seq<Notification<R>>) {
    forall i, j :: 0 <= i < j < |ns| && ns[i].comm == Done ==> ns[j].comm == Done
  }

  lemma {:induction false} RedeliveredDoneIsNoop<R, T, E, C>(b: Bridge<T, E, C>, ns: seq<Notification<R>>,
                                                            onDone: (TerminalState, R) -> Handling<T, E>)
    requires b.prev == Done
    requires forall i :: 0 <= i < |ns| ==> ns[i].comm == Done
    ensures RunBridge(b, ns, onDone) == Run(b, 0, 0)
    decreases |ns|
  {
    if |ns| > 0 {
      RedeliveredDoneIsNoop(b, ns[1..], onDone);
    }
  }

  /** A first DONE past the head of a stream whose head is not DONE is the first
      DONE of the tail, one position earlier. */
  lemma FirstDoneInTail<R>(ns: seq<Notification<R>>, k: nat)
    requires 0 < |ns| && ns[0].comm != Done
    requires k < |ns| && ns[k].comm == Done && Done !in Comms(ns[..k])
    ensures 0 < k && ns[1..][k - 1] == ns[k] && Done !in Comms(ns[1..][..k - 1])
  {
    assert ns[..k][0] == ns[0];
    assert Comms(ns[..k]) == [ns[0].comm] + Comms(ns[1..][..k - 1]);
  }

  /** Under any redelivery of comm-states, a pending future is resolved at most
      once: exactly when DONE is reported, by the handler's decision on the first
      DONE notification, and no callback invocation raises. */
  lemma {:induction false} ResolvesExactlyOnce<R, T, E, C>(b: Bridge<T, E, C>, ns: seq<Notification<R>>,
                                                          onDone: (TerminalState, R) -> Handling<T, E>)
    requires !IsDone(b.future) && b.prev != Done
    requires DoneIsFinal(ns)
    requires forall i :: 0 <= i < |ns| && ns[i].comm == Done ==>
               ns[i].result.Some? && !onDone(ns[i].terminal, ns[i].result.value).Crash?
    ensures RunBridge(b, ns, onDone).faults == 0
    ensures IsDone(RunBridge(b, ns, onDone).bridge.future) <==> Done in Comms(ns)
    ensures RunBridge(b, ns, onDone).onDoneCalls == if Done in Comms(ns) then 1 else 0
    ensures forall k :: 0 <= k < |ns| && ns[k].comm == Done && Done !in Comms(ns[..k]) ==>
              RunBridge(b, ns, onDone).bridge.future ==
              Apply(b.future, onDone(ns[k].terminal, ns[k].result.value)).future
    decreases |ns|
  {
    if |ns| > 0 {
      var t := OnTransition(b, ns[0], onDone);
      var r := RunBridge(b, ns, onDone);
      var rest := RunBridge(t.bridge, ns[1..], onDone);
      assert Comms(ns) == [ns[0].comm] + Comms(ns[1..]);
      if ns[0].comm == Done {
        assert forall i :: 0 <= i < |ns[1..]| ==> ns[1..][i].comm == Done by {
          forall i | 0 <= i < |ns[1..]| ensures ns[1..][i].comm == Done {
            assert ns[1..][i] == ns[i + 1];
          }
        }
        RedeliveredDoneIsNoop(t.bridge, ns[1..], onDone);
        forall k | 0 <= k < |ns| && ns[k].comm == Done && Done !in Comms(ns[..k])
          ensures r.bridge.future == Apply(b.future, onDone(ns[k].terminal, ns[k].result.value)).future
        {
        }
      } else {
        assert DoneIsFinal(ns[1..]) by {
          forall i, j | 0 <= i < j < |ns[1..]| && ns[1..][i].comm == Done
            ensures ns[1..][j].comm == Done
          {
            assert ns[1..][i] == ns[i + 1] && ns[1..][j] == ns[j + 1];
          }
        }
        ResolvesExactlyOnce(t.bridge, ns[1..], onDone);
        forall k | 0 <= k < |ns| && ns[k].comm == Done && Done !in Comms(ns[..k])
          ensures r.bridge.future == Apply(b.future, onDone(ns[k].terminal, ns[k].result.value)).future
        {
          FirstDoneInTail(ns, k);
        }
      }
    }
  }
}

=== FILE: base.dfy ===
/** Shared vocabulary: optional values, success-or-failure results, duplicate-free
    sequences, and the effect an operation has on its caller (callbacks it calls
    synchronously, or the exception it raises). */
module Base {

  /** Python's `None` versus a present value. */
  datatype Option<+T> = None | Some(value: T) {
    /** The value, or `default` when absent (Python's `x if x is not None else default`). */
    function GetOr(default: T): T {
      if Some? then value else default
    }
  }

  /** A value, or the exception raised instead of returning one. */
  datatype Result<+R, +E> = Success(value: R) | Failure(error: E)

  /** No element occurs twice. */
  predicate NoDuplicates<T(==)>(s: seq<T>) {
    forall i, j :: 0 <= i < j < |s| ==> s[i] != s[j]
  }

  /** The exceptions raised synchronously by the future and its transition handlers. */
  datatype Fault =
    | AlreadyDone                 // resolving a future that is already done
    | CallbackAlreadyRegistered   // add_done_callback with a registered function
    | CallbackNotRegistered       // remove_done_callback with an unknown function
    | ResultMissing               // a handler reads a field of an absent action result
    | ExceptionArity              // a handler builds an exception with too few arguments

  /** What a call did besides changing state: the callbacks it invoked, in order,
      or the exception it raised. */
  datatype Effect<C> = Called(calls: seq<C>) | Raised(fault: Fault)

  lemma {:induction false} NoDuplicatesCountOne<T>(s: seq<T>, x: T)
    requires NoDuplicates(s)
    requires x in s
    ensures multiset(s)[x] == 1
  {
    if s[0] == x {
      assert s == [s[0]] + s[1..];
      assert x !in s[1..] by {
        forall k | 0 <= k < |s[1..]| ensures s[1..][k] != x {
          assert s[1..][k] == s[k + 1];
        }
      }
      assert multiset(s[1..])[x] == 0;
    } else {
      assert s == [s[0]] + s[1..];
      assert NoDuplicates(s[1..]) by {
        forall i, j | 0 <= i < j < |s[1..]| ensures s[1..][i] != s[1..][j] {
          assert s[1..][i] == s[i + 1] && s[1..][j] == s[j + 1];
        }
      }
      NoDuplicatesCountOne(s[1..], x);
    }
  }

  /** The elements of `s` that satisfy `keep` and are not in `seen`, each once, in
      order of first occurrence. This is the order the model fixes wherever `util.py`
      iterates over a Python set built from `s`, whose order is unspecified. */
  function DistinctWhere<T(==)>(s: seq<T>, keep: T -> bool, seen: set<T>): (r: seq<T>)
    ensures forall x :: x in r ==> x in s && keep(x) && x !in seen
    ensures forall x :: x in s && keep(x) && x !in seen ==> x in r
    ensures NoDuplicates(r)
    decreases |s|
  {
    if |s| == 0 then []
    else if keep(s[0]) && s[0] !in seen then [s[0]] + DistinctWhere(s[1..], keep, seen + {s[0]})
    else DistinctWhere(s[1..], keep, seen)
  }

  /** When nothing in `s` is both kept and unseen, nothing is selected. */
  lemma {:induction false} DistinctWhereNone<T>(s: seq<T>, keep: T -> bool, seen: set<T>)
    requires forall x :: x in s ==> !keep(x) || x in seen
    ensures DistinctWhere(s, keep, seen) == []
    decreases |s|
  {
    if |s| > 0 {
      assert forall x :: x in s[1..] ==> x in s;
      DistinctWhereNone(s[1..], keep, seen);
    }
  }
}

=== FILE: controller_client.dfy ===
/** Controller switch planning and joint-state filtering. The controller
    manager's list and switch services and the robot's joint table are not
    modelled: the listed controllers, the switch service's reply and the
    name-to-DOF mapping are parameters, and each service request the model would
    send is returned as a value. */
module ControllerClient {
  import opened Base

  /** The state a running controller reports. */
  const RUNNING: string := "running"

  /** One entry of the controller manager's list: name, state, claimed resources. */
  datatype ControllerInfo = ControllerInfo(name: string, state: string, resources: seq<string>)

  /** The two exceptions of the switcher; every SwitchError is also a ROSControlError. */
  datatype ControlError = SwitchError | ROSControlError

  /** A strict switch request: controllers to start and controllers to stop. */
  datatype SwitchRequest = SwitchRequest(start: seq<string>, stop: seq<string>)

  /** The resources claimed by the listed controllers whose name is requested. */
  function RequiredResources(infos: seq<ControllerInfo>, requested: set<string>): (r: set<string>)
    ensures forall i, x :: 0 <= i < |infos| && infos[i].name in requested && x in infos[i].resources ==> x in r
    ensures forall x :: x in r ==> exists i :: 0 <= i < |infos| && infos[i].name in requested && x in infos[i].resources
    decreases |infos|
  {
    if |infos| == 0 then {}
    else
      var rest := RequiredResources(infos[1..], requested);
      assert forall i :: 1 <= i < |infos| ==> infos[i] == infos[1..][i - 1];
      (if infos[0].name in requested then set x | x in infos[0].resources else {}) + rest
  }

  /** The names of the listed controllers that satisfy `p`, in list order. */
  function NamesWhere(infos: seq<ControllerInfo>, p: ControllerInfo -> bool): (names: seq<string>)
    ensures |names| <= |infos|
    ensures forall n :: n in names ==> exists i :: 0 <= i < |infos| && p(infos[i]) && infos[i].name == n
    ensures forall i :: 0 <= i < |infos| && p(infos[i]) ==> infos[i].name in names
    decreases |infos|
  {
    if |infos| == 0 then []
    else
      var rest := NamesWhere(infos[1..], p);
      assert forall i :: 1 <= i < |infos| ==> infos[i] == infos[1..][i - 1];
      (if p(infos[0]) then [infos[0].name] else []) + rest
  }

  /** Selection distributes over concatenation, so it keeps list order. */
  lemma {:induction false} NamesWhereAppend(a: seq<ControllerInfo>, b: seq<ControllerInfo>, p: ControllerInfo -> bool)
    ensures NamesWhere(a + b, p) == NamesWhere(a, p) + NamesWhere(b, p)
    decreases |a|
  {
    if |a| > 0 {
      assert (a + b)[1..] == a[1..] + b;
      NamesWhereAppend(a[1..], b, p);
      var head := if p(a[0]) then [a[0].name] else [];
      assert NamesWhere(a, p) == head + NamesWhere(a[1..], p);
      assert NamesWhere(a + b, p) == head + NamesWhere(a[1..] + b, p);
    } else {
      assert a + b == b;
    }
  }

  /** A single controller is selected exactly when it satisfies `p`. */
  lemma NamesWhereSingle(c: ControllerInfo, p: ControllerInfo -> bool)
    ensures NamesWhere([c], p) == if p(c) then [c.name] else []
  {
  }

  /** Whether a controller claims one of `required` (Python's `not isdisjoint`). */
  predicate Conflicts(required: set<string>, c: ControllerInfo) {
    exists x :: x in c.resources && x in required
  }

  /** The requested controllers that are not already running, in list order. */
  function StartList(infos: seq<ControllerInfo>, requested: set<string>): (start: seq<string>)
    ensures forall n :: n in start ==> n in requested
    ensures forall n :: n in start ==> exists i :: 0 <= i < |infos| && infos[i].name == n && infos[i].state != RUNNING
    ensures forall i :: 0 <= i < |infos| && infos[i].name in requested && infos[i].state != RUNNING ==> infos[i].name in start
  {
    NamesWhere(infos, (c: ControllerInfo) => c.name in requested && c.state != RUNNING)
  }

  /** The running, non-requested controllers that claim a required resource, in
      list order. */
  function StopList(infos: seq<ControllerInfo>, requested: set<string>): (stop: seq<string>)
    ensures forall n :: n in stop ==> n !in requested
    ensures forall n :: n in stop ==> exists i :: 0 <= i < |infos| && infos[i].name == n && infos[i].state == RUNNING &&
                                                Conflicts(RequiredResources(infos, requested), infos[i])
    ensures forall i :: (0 <= i < |infos| && infos[i].name !in requested && infos[i].state == RUNNING &&
                         Conflicts(RequiredResources(infos, requested), infos[i])) ==> infos[i].name in stop
  {
    var required := RequiredResources(infos, requested);
    NamesWhere(infos, (c: ControllerInfo) => c.name !in requested && c.state == RUNNING && Conflicts(required, c))
  }

  /** No controller is both started and stopped. */
  lemma StartStopDisjoint(infos: seq<ControllerInfo>, requested: set<string>)
    ensures forall n :: n in StartList(infos, requested) ==> n !in StopList(infos, requested)
  {
  }

  /** A stopped controller shares a resource with some requested controller. */
  lemma StoppedConflictsWithRequested(infos: seq<ControllerInfo>, requested: set<string>, n: string)
    requires n in StopList(infos, requested)
    ensures exists i, j, x :: 0 <= i < |infos| && 0 <= j < |infos| && infos[i].name == n && infos[i].state == RUNNING &&
                              infos[j].name in requested && x in infos[i].resources && x in infos[j].resources
  {
    var i :| 0 <= i < |infos| && infos[i].name == n && infos[i].state == RUNNING &&
             Conflicts(RequiredResources(infos, requested), infos[i]);
    var x :| x in infos[i].resources && x in RequiredResources(infos, requested);
    var j :| 0 <= j < |infos| && infos[j].name in requested && x in infos[j].resources;
  }

  /** `switch`: plan the request from the controller list, send it, and return the
      two lists when the service reports success; otherwise raise SwitchError. */
  function Switch(infos: seq<ControllerInfo>, requested: set<string>, ok: bool)
    : (r: (SwitchRequest, Result<(seq<string>, seq<string>), ControlError>))
    ensures r.0 == SwitchRequest(StartList(infos, requested), StopList(infos, requested))
    ensures ok ==> r.1 == Success((r.0.start, r.0.stop))
    ensures !ok ==> r.1 == Failure(SwitchError)
  {
    var request := SwitchRequest(StartList(infos, requested), StopList(infos, requested));
    (request, if ok then Success((request.start, request.stop)) else Failure(SwitchError))
  }

  /** The switcher context: the requested names as a set, and the lists the last
      successful switch started and stopped, absent before it and after a revert. */
  datatype Switcher = Switcher(requested: set<string>, started: Option<seq<string>>, stopped: Option<seq<string>>)

  /** A switcher for the named controllers; repeated names count once. */
  function NewSwitcher(names: seq<string>): (s: Switcher)
    ensures forall n :: n in s.requested <==> n in names
    ensures s.started.None? && s.stopped.None?
  {
    Switcher((set n | n in names), None, None)
  }

  /** Entering the context switches and, on success, remembers both lists. A failed
      switch raises and leaves the switcher as it was. */
  function Enter(s: Switcher, infos: seq<ControllerInfo>, ok: bool)
    : (r: (Switcher, SwitchRequest, Option<ControlError>))
    ensures r.1 == SwitchRequest(StartList(infos, s.requested), StopList(infos, s.requested))
    ensures ok ==> r.2.None? && r.0 == s.(started := Some(r.1.start), stopped := Some(r.1.stop))
    ensures !ok ==> r.2 == Some(SwitchError) && r.0 == s
  {
    var (request, outcome) := Switch(infos, s.requested, ok);
    match outcome
    case Success((start, stop)) => (s.(started := Some(start), stopped := Some(stop)), request, None)
    case Failure(e) => (s, request, Some(e))
  }

  /** `unswitch` (also the context exit): without remembered lists it raises
      ROSControlError and sends nothing; otherwise it requests the stopped
      controllers to start and the started ones to stop, forgets both lists
      whatever the reply, and raises SwitchError when the revert fails. */
  function Unswitch(s: Switcher, ok: bool): (r: (Switcher, Option<SwitchRequest>, Option<ControlError>))
    ensures s.started.None? || s.stopped.None? ==> r == (s, None, Some(ROSControlError))
    ensures s.started.Some? && s.stopped.Some? ==>
              && r.1 == Some(SwitchRequest(s.stopped.value, s.started.value))
              && r.0 == s.(started := None, stopped := None)
              && (r.2.None? <==> ok)
              && (!ok ==> r.2 == Some(SwitchError))
  {
    if s.started.None? || s.stopped.None? then (s, None, Some(ROSControlError))
    else
      var request := SwitchRequest(s.stopped.value, s.started.value);
      (s.(started := None, stopped := None), Some(request), if ok then None else Some(SwitchError))
  }

  /** Leaving the context after a successful switch sends the inverse request and
      returns the switcher to its fresh state; a second exit then raises. */
  lemma EnterThenUnswitchReverts(names: seq<string>, infos: seq<ControllerInfo>, ok: bool)
    ensures var s := NewSwitcher(names);
            var (entered, request, _) := Enter(s, infos, true);
            var (exited, revert, _) := Unswitch(entered, ok);
            && revert == Some(SwitchRequest(request.stop, request.start))
            && exited == s
            && Unswitch(exited, ok).2 == Some(ROSControlError)
  {
  }

  /** Leaving a context whose switch failed raises without sending a request. */
  lemma FailedEnterThenUnswitchRaises(names: seq<string>, infos: seq<ControllerInfo>, ok: bool)
    ensures var s := NewSwitcher(names);
            var entered := Enter(s, infos, false).0;
            Unswitch(entered, ok) == (entered, None, Some(ROSControlError))
  {
  }

  // ---------------------------------------------------------------------------
  // Joint-state filtering

  /** The joint-state callback: pair each name with its position (stopping at the
      shorter list), keep the pairs whose name the robot maps to a DOF, and return
      the DOF indices and values to set, in message order. */
  function FilterJointState(mapping: map<string, int>, names: seq<string>, positions: seq<real>)
    : (r: (seq<int>, seq<real>))
    ensures |r.0| == |r.1|
    ensures |r.0| <= |names| && |r.0| <= |positions|
    decreases |names|
  {
    if |names| == 0 || |positions| == 0 then ([], [])
    else
      var rest := FilterJointState(mapping, names[1..], positions[1..]);
      if names[0] in mapping then ([mapping[names[0]]] + rest.0, [positions[0]] + rest.1)
      else rest
  }

  /** Every emitted pair comes from one paired name of the message that the robot
      maps, with that name's DOF index and that name's position. */
  lemma {:induction false} FilterJointStateProvenance(mapping: map<string, int>, names: seq<string>,
                                                      positions: seq<real>, k: nat)
    requires k < |FilterJointState(mapping, names, positions).0|
    ensures exists i :: 0 <= i < |names| && i < |positions| && names[i] in mapping &&
                        FilterJointState(mapping, names, positions).0[k] == mapping[names[i]] &&
                        FilterJointState(mapping, names, positions).1[k] == positions[i]
    decreases |names|
  {
    var rest := FilterJointState(mapping, names[1..], positions[1..]);
    if names[0] in mapping && k == 0 {
      assert names[0] in mapping && FilterJointState(mapping, names, positions).0[0] == mapping[names[0]];
    } else {
      var k' := if names[0] in mapping then k - 1 else k;
      FilterJointStateProvenance(mapping, names[1..], positions[1..], k');
      var i :| 0 <= i < |names[1..]| && i < |positions[1..]| && names[1..][i] in mapping &&
               rest.0[k'] == mapping[names[1..][i]] && rest.1[k'] == positions[1..][i];
      assert names[1..][i] == names[i + 1] && positions[1..][i] == positions[i + 1];
    }
  }

  /** A one-joint message sets that joint exactly when the robot maps its name. */
  lemma FilterJointStateSingle(mapping: map<string, int>, name: string, position: real)
    ensures FilterJointState(mapping, [name], [position]) ==
            if name in mapping then ([mapping[name]], [position]) else ([], [])
  {
    assert [name][1..] == [] && [position][1..] == [];
    assert FilterJointState(mapping, [], []) == ([], []);
    if name in mapping {
      assert [mapping[name]] + [] == [mapping[name]] && [position] + [] == [position];
    }
  }

  /** Filtering distributes over messages laid end to end, so it keeps message order. */
  lemma {:induction false} FilterJointStateAppend(mapping: map<string, int>, n1: seq<string>, p1: seq<real>,
                                                  n2: seq<string>, p2: seq<real>)
    requires |n1| == |p1|
    ensures var a := FilterJointState(mapping, n1, p1);
            var b := FilterJointState(mapping, n2, p2);
            FilterJointState(mapping, n1 + n2, p1 + p2) == (a.0 + b.0, a.1 + b.1)
    decreases |n1|
  {
    if |n1| > 0 {
      assert (n1 + n2)[1..] == n1[1..] + n2 && (p1 + p2)[1..] == p1[1..] + p2;
      assert (n1 + n2)[0] == n1[0] && (p1 + p2)[0] == p1[0];
      FilterJointStateAppend(mapping, n1[1..], p1[1..], n2, p2);
      var tail := FilterJointState(mapping, n1[1..], p1[1..]);
      var b := FilterJointState(mapping, n2, p2);
      if n1[0] in mapping {
        assert [mapping[n1[0]]] + (tail.0 + b.0) == ([mapping[n1[0]]] + tail.0) + b.0;
        assert [p1[0]] + (tail.1 + b.1) == ([p1[0]] + tail.1) + b.1;
      }
    } else {
      assert n1 + n2 == n2 && p1 + p2 == p2;
      assert FilterJointState(mapping, n1, p1) == ([], []);
      var b := FilterJointState(mapping, n2, p2);
      assert [] + b.0 == b.0 && [] + b.1 == b.1;
    }
  }

  /** When every paired name is mapped, every pair is kept: the values are the
      positions up to the shorter length. */
  lemma {:induction false} FilterJointStateAllMapped(mapping: map<string, int>, names: seq<string>, positions: seq<real>)
    requires forall i :: 0 <= i < |names| && i < |positions| ==> names[i] in mapping
    ensures |FilterJointState(mapping, names, positions).0| == if |names| < |positions| then |names| else |positions|
    ensures FilterJointState(mapping, names, positions).1 ==
            positions[..if |names| < |positions| then |names| else |positions|]
    decreases |names|
  {
    if |names| > 0 && |positions| > 0 {
      FilterJointStateAllMapped(mapping, names[1..], positions[1..]);
      var m := if |names| < |positions| then |names| else |positions|;
      assert positions[..m] == [positions[0]] + positions[1..][..m - 1];
    }
  }

  /** When no paired name is mapped, nothing is set. */
  lemma {:induction false} FilterJointStateNoneMapped(mapping: map<string, int>, names: seq<string>, positions: seq<real>)
    requires forall i :: 0 <= i < |names| && i < |positions| ==> names[i] !in mapping
    ensures FilterJointState(mapping, names, positions) == ([], [])
    decreases |names|
  {
    if |names| > 0 && |positions| > 0 {
      FilterJointStateNoneMapped(mapping, names[1..], positions[1..]);
    }
  }
}

=== FILE: futures.dfy ===
/** A single-assignment result holder. A future is pending until one of
    `SetResult`, `SetException` or `SetCancelled` marks it done; it keeps an
    ordered list of done-callbacks, which the resolving call invokes in
    registration order. The lock and the condition variable of `futures.py` only
    serialise these steps and are not modelled; every operation is a pure step
    function returning the new future and its effect on the caller. */
module Futures {
  import opened Base

  /** `T` is the result type, `E` the exception type, `C` the callback identity. */
  datatype Future<T, E, C> = Future(
    isDone: bool,
    isCancelled: bool,
    result: Option<T>,
    exception: Option<E>,
    callbacks: seq<C>)

  /** The future after an operation, and what the operation did to its caller. */
  datatype Step<T, E, C> = Step(future: Future<T, E, C>, effect: Effect<C>)

  /** What `result()` / `exception()` report once their wait is over. */
  datatype Outcome<V, E> = TimedOut | CancelledError | Raises(error: E) | Returns(value: V)

  /** `done()`: exactly when `result()` and `exception()`, once their wait ends, do not raise
      TimeoutError. */
  function IsDone<T, E, C>(f: Future<T, E, C>): (done: bool)
    ensures done <==> !ResultOf(f).TimedOut?
    ensures done <==> !ExceptionOf(f).TimedOut?
  {
    f.isDone
  }

  /** `cancelled()`: only a done future reports cancelled, and then exactly when
      both accessors raise CancelledError. */
  function IsCancelled<T, E, C>(f: Future<T, E, C>): (cancelled: bool)
    ensures cancelled ==> IsDone(f)
    ensures cancelled <==> ResultOf(f).CancelledError?
    ensures cancelled <==> ExceptionOf(f).CancelledError?
  {
    f.isDone && f.isCancelled
  }

  /** The invariant every operation keeps: callbacks are distinct, and a pending
      future carries no outcome yet. */
  predicate Valid<T, E, C(==)>(f: Future<T, E, C>) {
    && NoDuplicates(f.callbacks)
    && (!f.isDone ==> !f.isCancelled && f.result.None? && f.exception.None?)
  }

  /** A fresh future: pending, nothing stored, no callbacks. */
  function NewFuture<T, E, C(==)>(): (f: Future<T, E, C>)
    ensures Valid(f)
    ensures !IsDone(f) && !IsCancelled(f)
    ensures ResultOf(f) == TimedOut && ExceptionOf(f) == TimedOut
    ensures f.callbacks == []
  {
    Future(false, false, None, None, [])
  }

  /** The classification `result()` makes after its wait. */
  function ResultOf<T, E, C>(f: Future<T, E, C>): (r: Outcome<Option<T>, E>)
    ensures r.TimedOut? <==> !f.isDone
    ensures r.CancelledError? <==> f.isDone && f.isCancelled
    ensures r.Raises? <==> f.isDone && !f.isCancelled && f.exception.Some?
    ensures r.Raises? ==> r.error == f.exception.value
    ensures r.Returns? ==> r.value == f.result
  {
    if !f.isDone then TimedOut
    else if f.isCancelled then CancelledError
    else if f.exception.Some? then Raises(f.exception.value)
    else Returns(f.result)
  }

  /** The classification `exception()` makes after its wait: it returns the stored
      exception instead of raising it, and `None` when there is none. */
  function ExceptionOf<T, E, C>(f: Future<T, E, C>): (r: Outcome<Option<E>, E>)
    ensures !r.Raises?
    ensures r.TimedOut? <==> !f.isDone
    ensures r.CancelledError? <==> f.isDone && f.isCancelled
    ensures r.Returns? ==> r.value == f.exception
  {
    if !f.isDone then TimedOut
    else if f.isCancelled then CancelledError
    else if f.exception.Some? then Returns(f.exception)
    else Returns(None)
  }

  /** `result()` raises exactly the exception that `exception()` returns, and
      returns a value exactly when `exception()` returns `None`. */
  lemma AccessorsAgree<T, E, C>(f: Future<T, E, C>)
    ensures ResultOf(f).Raises? <==> ExceptionOf(f).Returns? && ExceptionOf(f).value.Some?
    ensures ResultOf(f).Raises? ==> ExceptionOf(f) == Returns(Some(ResultOf(f).error))
    ensures ResultOf(f).Returns? <==> ExceptionOf(f) == Returns(None)
    ensures ResultOf(f).TimedOut? <==> ExceptionOf(f).TimedOut?
    ensures ResultOf(f).CancelledError? <==> ExceptionOf(f).CancelledError?
  {
  }

  /** Mark done and hand back a snapshot of the callbacks to call; refuse a
      future that is already done. */
  function MarkDone<T, E, C>(f: Future<T, E, C>): (r: Step<T, E, C>)
    ensures IsDone(r.future)
    ensures r.future == f.(isDone := true)
    ensures IsDone(f) ==> r.effect == Raised(AlreadyDone)
    ensures !IsDone(f) ==> r.effect == Called(f.callbacks)
  {
    if f.isDone then Step(f, Raised(AlreadyDone))
    else Step(f.(isDone := true), Called(f.callbacks))
  }

  /** Store a result, then mark done. The result is stored before the done check,
      so a late call overwrites it even though it raises. */
  function SetResult<T, E, C>(f: Future<T, E, C>, v: T): (r: Step<T, E, C>)
    ensures IsDone(r.future) && r.future.result == Some(v)
    ensures r.future.isCancelled == f.isCancelled && r.future.exception == f.exception
    ensures r.future.callbacks == f.callbacks
    ensures !IsDone(f) ==> r.effect == Called(f.callbacks)
    ensures IsDone(f) ==> r.effect == Raised(AlreadyDone)
    ensures !IsDone(f) && Valid(f) ==>
              && ResultOf(r.future) == Returns(Some(v))
              && ExceptionOf(r.future) == Returns(None)
              && !IsCancelled(r.future)
  {
    MarkDone(f.(result := Some(v)))
  }

  /** Store an exception, then mark done (same store-before-check order). */
  function SetException<T, E, C>(f: Future<T, E, C>, e: E): (r: Step<T, E, C>)
    ensures IsDone(r.future) && r.future.exception == Some(e)
    ensures r.future.isCancelled == f.isCancelled && r.future.result == f.result
    ensures r.future.callbacks == f.callbacks
    ensures !IsDone(f) ==> r.effect == Called(f.callbacks)
    ensures IsDone(f) ==> r.effect == Raised(AlreadyDone)
    ensures !IsDone(f) && Valid(f) ==>
              && ResultOf(r.future) == Raises(e)
              && ExceptionOf(r.future) == Returns(Some(e))
              && !IsCancelled(r.future)
  {
    MarkDone(f.(exception := Some(e)))
  }

  /** Flag cancelled, then mark done. The flag is set before the done check, so
      even a refused call leaves the future reporting `cancelled()`. */
  function SetCancelled<T, E, C>(f: Future<T, E, C>): (r: Step<T, E, C>)
    ensures IsDone(r.future) && IsCancelled(r.future)
    ensures ResultOf(r.future) == CancelledError && ExceptionOf(r.future) == CancelledError
    ensures r.future.result == f.result && r.future.exception == f.exception
    ensures r.future.callbacks == f.callbacks
    ensures !IsDone(f) ==> r.effect == Called(f.callbacks)
    ensures IsDone(f) ==> r.effect == Raised(AlreadyDone)
  {
    MarkDone(f.(isCancelled := true))
  }

  /** Register `fn`. On a done future `fn` is called at once and not registered;
      on a pending one a registered `fn` is refused, otherwise it is appended. */
  function AddDoneCallback<T, E, C(==)>(f: Future<T, E, C>, fn: C): (r: Step<T, E, C>)
    ensures IsDone(f) ==> r == Step(f, Called([fn]))
    ensures !IsDone(f) && fn in f.callbacks ==> r == Step(f, Raised(CallbackAlreadyRegistered))
    ensures !IsDone(f) && fn !in f.callbacks ==>
              r == Step(f.(callbacks := f.callbacks + [fn]), Called([]))
  {
    if f.isDone then Step(f, Called([fn]))
    else if fn in f.callbacks then Step(f, Raised(CallbackAlreadyRegistered))
    else Step(f.(callbacks := f.callbacks + [fn]), Called([]))
  }

  /** The position of the first occurrence of `x` in `s`. */
  function FirstIndex<C(==)>(s: seq<C>, x: C): (i: nat)
    requires x in s
    ensures i < |s| && s[i] == x && x !in s[..i]
  {
    if s[0] == x then 0
    else
      var i := FirstIndex(s[1..], x);
      assert s[..i + 1] == [s[0]] + s[1..][..i];
      i + 1
  }

  /** Python's `list.remove`: drop the first occurrence of `x`, keeping every
      other element in its order. */
  function RemoveFirst<C(==)>(s: seq<C>, x: C): (r: seq<C>)
    requires x in s
    ensures r == s[..FirstIndex(s, x)] + s[FirstIndex(s, x) + 1..]
    ensures |r| == |s| - 1
  {
    if s[0] == x then
      assert FirstIndex(s, x) == 0 && s[..0] + s[1..] == s[1..];
      s[1..]
    else
      var i := FirstIndex(s[1..], x);
      assert FirstIndex(s, x) == i + 1;
      SpliceUnderHead(s, i);
      [s[0]] + RemoveFirst(s[1..], x)
  }

  /** Removing position `i` of the tail and putting the head back removes
      position `i + 1` of the whole. */
  lemma SpliceUnderHead<C>(s: seq<C>, i: nat)
    requires i + 1 < |s|
    ensures [s[0]] + (s[1..][..i] + s[1..][i + 1..]) == s[..i + 1] + s[i + 2..]
  {
    assert s[..i + 1] == [s[0]] + s[1..][..i];
    assert s[i + 2..] == s[1..][i + 1..];
  }

  /** Removal takes away exactly one occurrence of `x` and nothing else. */
  lemma RemoveFirstTakesOneOccurrence<C>(s: seq<C>, x: C)
    requires x in s
    ensures multiset(RemoveFirst(s, x)) == multiset(s) - multiset{x}
  {
    var p := FirstIndex(s, x);
    assert s == s[..p] + [x] + s[p + 1..];
  }

  /** Unregister `fn`, on a pending or a done future alike; an unknown `fn` is refused. */
  function RemoveDoneCallback<T, E, C(==)>(f: Future<T, E, C>, fn: C): (r: Step<T, E, C>)
    ensures fn !in f.callbacks ==> r == Step(f, Raised(CallbackNotRegistered))
    ensures fn in f.callbacks ==>
              && r.effect == Called([])
              && r.future == f.(callbacks := RemoveFirst(f.callbacks, fn))
              && multiset(r.future.callbacks) == multiset(f.callbacks) - multiset{fn}
    ensures fn in f.callbacks && Valid(f) ==> fn !in r.future.callbacks
  {
    if fn in f.callbacks then
      var rest := RemoveFirst(f.callbacks, fn);
      RemoveFirstTakesOneOccurrence(f.callbacks, fn);
      assert NoDuplicates(f.callbacks) ==> fn !in rest by {
        if NoDuplicates(f.callbacks) {
          NoDuplicatesCountOne(f.callbacks, fn);
          assert multiset(rest)[fn] == 0;
        }
      }
      Step(f.(callbacks := rest), Called([]))
    else
      Step(f, Raised(CallbackNotRegistered))
  }

  /** Removal keeps a duplicate-free list duplicate-free: every remaining element
      sits at its old position or one before it. */
  lemma RemoveFirstKeepsNoDuplicates<C>(s: seq<C>, x: C)
    requires x in s && NoDuplicates(s)
    ensures NoDuplicates(RemoveFirst(s, x))
  {
    var r := RemoveFirst(s, x);
    var p := FirstIndex(s, x);
    forall a, b | 0 <= a < b < |r| ensures r[a] != r[b] {
      var a' := if a < p then a else a + 1;
      var b' := if b < p then b else b + 1;
      assert r[a] == s[a'] && r[b] == s[b'];
    }
  }

  /** Every operation keeps `Valid`, whether it succeeds or raises. */
  lemma OperationsKeepValid<T, E, C>(f: Future<T, E, C>, v: T, e: E, fn: C)
    requires Valid(f)
    ensures Valid(SetResult(f, v).future)
    ensures Valid(SetException(f, e).future)
    ensures Valid(SetCancelled(f).future)
    ensures Valid(AddDoneCallback(f, fn).future)
    ensures Valid(RemoveDoneCallback(f, fn).future)
  {
    if !f.isDone && fn !in f.callbacks {
      var s := f.callbacks + [fn];
      forall i, j | 0 <= i < j < |s| ensures s[i] != s[j] {
        if j == |s| - 1 {
          assert s[i] in f.callbacks;
        } else {
          assert s[i] == f.callbacks[i] && s[j] == f.callbacks[j];
        }
      }
    }
    if fn in f.callbacks {
      RemoveFirstKeepsNoDuplicates(f.callbacks, fn);
    }
  }

  /** Removing a callback right after adding it to a pending future restores it. */
  lemma {:induction false} AddThenRemoveRestores<T, E, C>(f: Future<T, E, C>, fn: C)
    requires !IsDone(f) && fn !in f.callbacks
    ensures RemoveDoneCallback(AddDoneCallback(f, fn).future, fn) == Step(f, Called([]))
  {
    RemoveFirstOfAppended(f.callbacks, fn);
  }

  lemma {:induction false} RemoveFirstOfAppended<C>(s: seq<C>, x: C)
    requires x !in s
    ensures RemoveFirst(s + [x], x) == s
  {
    if s != [] {
      assert (s + [x])[1..] == s[1..] + [x];
      RemoveFirstOfAppended(s[1..], x);
    }
  }

  /** Register `fns` one after the other, keeping the future each call leaves. */
  function RegisterAll<T, E, C(==)>(f: Future<T, E, C>, fns: seq<C>): Future<T, E, C>
    decreases |fns|
  {
    if |fns| == 0 then f else RegisterAll(AddDoneCallback(f, fns[0]).future, fns[1..])
  }

  /** Distinct callbacks registered one by one on a pending future end up in the
      list in registration order. */
  lemma {:induction false} RegisterAllAppends<T, E, C>(f: Future<T, E, C>, fns: seq<C>)
    requires !IsDone(f) && NoDuplicates(f.callbacks + fns)
    ensures RegisterAll(f, fns) == f.(callbacks := f.callbacks + fns)
    decreases |fns|
  {
    if |fns| > 0 {
      var all := f.callbacks + fns;
      forall k | 0 <= k < |f.callbacks| ensures f.callbacks[k] != fns[0] {
        assert all[k] == f.callbacks[k] && all[|f.callbacks|] == fns[0];
      }
      var g := AddDoneCallback(f, fns[0]).future;
      assert g.callbacks + fns[1..] == all;
      RegisterAllAppends(g, fns[1..]);
    }
  }

  /** Resolving a fresh future after registering distinct callbacks calls each of
      them exactly once, in registration order. */
  lemma ResolutionCallsEachOnceInOrder<T, E, C>(fns: seq<C>, v: T)
    requires NoDuplicates(fns)
    ensures SetResult(RegisterAll(NewFuture<T, E, C>(), fns), v).effect == Called(fns)
    ensures forall c :: c in fns ==> multiset(fns)[c] == 1
  {
    var f := NewFuture<T, E, C>();
    assert f.callbacks + fns == fns;
    RegisterAllAppends(f, fns);
    forall c | c in fns ensures multiset(fns)[c] == 1 {
      NoDuplicatesCountOne(fns, c);
    }
  }

  /** A callback added after resolution is called once, at once, and never stored,
      so no later resolution can call it again. */
  lemma LateCallbackCalledOnce<T, E, C>(f: Future<T, E, C>, v: T, fn: C)
    requires !IsDone(f)
    ensures AddDoneCallback(SetResult(f, v).future, fn) == Step(SetResult(f, v).future, Called([fn]))
    ensures fn !in f.callbacks ==> fn !in AddDoneCallback(SetResult(f, v).future, fn).future.callbacks
  {
  }

  /** Resolving twice raises; because `set_cancelled` raises only after flagging,
      a late cancel turns a delivered result into a cancellation. */
  lemma LateCancelOverridesResult<T, E, C>(f: Future<T, E, C>, v: T)
    requires Valid(f) && !IsDone(f)
    ensures ResultOf(SetResult(f, v).future) == Returns(Some(v))
    ensures SetCancelled(SetResult(f, v).future).effect == Raised(AlreadyDone)
    ensures ResultOf(SetCancelled(SetResult(f, v).future).future) == CancelledError
  {
  }
}

=== FILE: messages.dfy ===
/** The wire messages the clients exchange, reduced to the fields the client
    logic reads or writes. Header stamps and frame ids are not modelled. */
module Messages {

  /** One timed waypoint of a joint trajectory; `timeFromStart` is in seconds. */
  datatype JointTrajectoryPoint = JointTrajectoryPoint(
    positions: seq<real>,
    velocities: seq<real>,
    accelerations: seq<real>,
    timeFromStart: real)

  /** A joint trajectory: joint names and the waypoints, one value per joint in each
      non-empty list. */
  datatype JointTrajectory = JointTrajectory(
    jointNames: seq<string>,
    points: seq<JointTrajectoryPoint>)

  /** A joint-state snapshot: parallel lists indexed by joint. */
  datatype JointState = JointState(
    name: seq<string>,
    position: seq<real>,
    velocity: seq<real>,
    effort: seq<real>)
}

=== FILE: set_position_client.dfy ===
/** The set-position command's future: the shared transition bridge, the
    position command copied at construction, and the set-position done handler,
    whose failure exception echoes that command. */
module SetPositionClient {
  import opened Base
  import opened Messages
  import opened Futures
  import opened ActionBridge
  import TriggerClient

  /** The set-position action result. */
  datatype SetPositionResult = SetPositionResult(success: bool, message: string)

  /** The failure exception: the terminal state and success flag its message names,
      and the requested and executed commands. */
  datatype SetPositionFailed = SetPositionFailed(
    terminal: TerminalState,
    success: bool,
    requested: JointState,
    executed: JointState)

  datatype SetPositionFuture<C> = SetPositionFuture(
    bridge: Bridge<SetPositionResult, SetPositionFailed, C>,
    command: JointState)

  /** A fresh future holding its own copy of the command. */
  function NewSetPositionFuture<C(==)>(command: JointState): (f: SetPositionFuture<C>)
    ensures f.command == command
    ensures f.bridge.prev == Pending
    ensures ResultOf(f.bridge.future) == TimedOut && Valid(f.bridge.future) && f.bridge.future.callbacks == []
  {
    SetPositionFuture(NewBridge(), command)
  }

  /** The set-position done handler. It classifies like the trigger handler, and
      its failure carries the stored command as both requested and executed. */
  function SetPositionOnDone(command: JointState, ts: TerminalState, res: SetPositionResult)
    : (h: Handling<SetPositionResult, SetPositionFailed>)
    ensures !h.Crash?
    ensures h.Deliver? <==> ts == Succeeded && res.success
    ensures h.Deliver? ==> h.value == res
    ensures h.Cancel? <==> ts in {Rejected, Recalled, Preempted}
    ensures h.Fail? ==> h.error == SetPositionFailed(ts, res.success, command, command)
  {
    var failure := SetPositionFailed(ts, res.success, command, command);
    if ts == Succeeded then
      if res.success then Deliver(res) else Fail(failure)
    else if TriggerClient.CancelledEnding(ts) then Cancel
    else Fail(failure)
  }

  /** Trigger and set-position futures reach the same kind of outcome from the same
      terminal state and success flag. */
  lemma SameClassificationAsTrigger(command: JointState, ts: TerminalState, success: bool)
    ensures SetPositionOnDone(command, ts, SetPositionResult(success, "")).Deliver? ==
            TriggerClient.TriggerOnDone(ts, TriggerClient.TriggerResult(success, "")).Deliver?
    ensures SetPositionOnDone(command, ts, SetPositionResult(success, "")).Cancel? ==
            TriggerClient.TriggerOnDone(ts, TriggerClient.TriggerResult(success, "")).Cancel?
    ensures SetPositionOnDone(command, ts, SetPositionResult(success, "")).Fail? ==
            TriggerClient.TriggerOnDone(ts, TriggerClient.TriggerResult(success, "")).Fail?
  {
  }

  /** The set-position transition callback. */
  function SetPositionOnTransition<C>(f: SetPositionFuture<C>, n: Notification<SetPositionResult>)
    : (r: (SetPositionFuture<C>, Effect<C>))
    ensures r.0.command == f.command
    ensures !CallsOnDone(f.bridge.prev, n.comm) ==> r == (f.(bridge := f.bridge.(prev := n.comm)), Called([]))
    ensures CallsOnDone(f.bridge.prev, n.comm) && n.result.None? ==> r == (f, Raised(ResultMissing))
    ensures CallsOnDone(f.bridge.prev, n.comm) && n.result.Some? && Valid(f.bridge.future) && !IsDone(f.bridge.future) ==>
              && r.0.bridge.prev == Done
              && r.1 == Called(f.bridge.future.callbacks)
              && IsDone(r.0.bridge.future)
              && (ResultOf(r.0.bridge.future) == Returns(Some(n.result.value)) <==>
                    n.terminal == Succeeded && n.result.value.success)
              && (ResultOf(r.0.bridge.future) == CancelledError <==> TriggerClient.CancelledEnding(n.terminal))
              && (ResultOf(r.0.bridge.future) ==
                    Raises(SetPositionFailed(n.terminal, n.result.value.success, f.command, f.command)) <==>
                    !(n.terminal == Succeeded && n.result.value.success) && !TriggerClient.CancelledEnding(n.terminal))
  {
    var t := OnTransition(f.bridge, n, (ts, res) => SetPositionOnDone(f.command, ts, res));
    (f.(bridge := t.bridge), t.effect)
  }
}

=== FILE: trajectory_client.dfy ===
/** The follow-trajectory command's future: the shared transition bridge, a copy
    of the requested trajectory, and the executed trajectory, which starts with
    the requested joint names and no waypoints. Its done handler decides success
    by the result's error code and reads fewer terminal states as cancellation
    than the trigger and set-position handlers do. */
module TrajectoryClient {
  import opened Base
  import opened Messages
  import opened Futures
  import opened ActionBridge
  import TriggerClient

  /** The follow-trajectory action result: an error code, SUCCESSFUL on success. */
  datatype TrajectoryResult = TrajectoryResult(errorCode: int)

  /** The error code of a successful follow-trajectory result; every other code is a failure. */
  const SUCCESSFUL: int := 0

  /** The failure exception: terminal state, error code, and copies of the
      requested and the executed trajectory. */
  datatype TrajectoryExecutionFailed = TrajectoryExecutionFailed(
    terminal: TerminalState,
    errorCode: int,
    requested: JointTrajectory,
    executed: JointTrajectory)

  datatype TrajectoryFuture<C> = TrajectoryFuture(
    bridge: Bridge<JointTrajectory, TrajectoryExecutionFailed, C>,
    requested: JointTrajectory,
    executed: JointTrajectory)

  /** A fresh future: the requested trajectory copied, the executed one empty but
      for the requested joint names. */
  function NewTrajectoryFuture<C(==)>(requested: JointTrajectory): (f: TrajectoryFuture<C>)
    ensures f.requested == requested
    ensures f.executed.jointNames == requested.jointNames && f.executed.points == []
    ensures f.bridge.prev == Pending
    ensures ResultOf(f.bridge.future) == TimedOut && Valid(f.bridge.future) && f.bridge.future.callbacks == []
  {
    TrajectoryFuture(NewBridge(), requested, JointTrajectory(requested.jointNames, []))
  }

  /** The trajectory done handler: success only for SUCCEEDED with error code
      SUCCESSFUL, resolving with the executed trajectory; cancellation only for
      PREEMPTED and RECALLED; failure otherwise, REJECTED included. */
  function TrajectoryOnDone(requested: JointTrajectory, executed: JointTrajectory,
                            ts: TerminalState, res: TrajectoryResult)
    : (h: Handling<JointTrajectory, TrajectoryExecutionFailed>)
    ensures !h.Crash?
    ensures h.Deliver? <==> ts == Succeeded && res.errorCode == SUCCESSFUL
    ensures h.Deliver? ==> h.value == executed
    ensures h.Cancel? <==> ts in {Preempted, Recalled}
    ensures h.Fail? <==> ts == Rejected || ts == Aborted || ts == LostGoal ||
                         (ts == Succeeded && res.errorCode != SUCCESSFUL)
    ensures h.Fail? ==> h.error == TrajectoryExecutionFailed(ts, res.errorCode, requested, executed)
  {
    var failure := TrajectoryExecutionFailed(ts, res.errorCode, requested, executed);
    match ts
    case Succeeded => if res.errorCode == SUCCESSFUL then Deliver(executed) else Fail(failure)
    case Preempted | Recalled => Cancel
    case _ => Fail(failure)
  }

  /** The trajectory handler and the trigger handler differ in cancellation on
      REJECTED alone: the trajectory future fails where the trigger future is
      cancelled. */
  lemma CancellationDiffersOnlyOnRejected(requested: JointTrajectory, executed: JointTrajectory,
                                           ts: TerminalState, code: int, success: bool)
    ensures TrajectoryOnDone(requested, executed, ts, TrajectoryResult(code)).Cancel? ==>
            TriggerClient.TriggerOnDone(ts, TriggerClient.TriggerResult(success, "")).Cancel?
    ensures (TriggerClient.TriggerOnDone(ts, TriggerClient.TriggerResult(success, "")).Cancel? &&
             !TrajectoryOnDone(requested, executed, ts, TrajectoryResult(code)).Cancel?) <==> ts == Rejected
    ensures TrajectoryOnDone(requested, executed, Rejected, TrajectoryResult(code)).Fail?
  {
  }

  /** The follow-trajectory transition callback. */
  function TrajectoryOnTransition<C>(f: TrajectoryFuture<C>, n: Notification<TrajectoryResult>)
    : (r: (TrajectoryFuture<C>, Effect<C>))
    ensures r.0.requested == f.requested && r.0.executed == f.executed
    ensures !CallsOnDone(f.bridge.prev, n.comm) ==> r == (f.(bridge := f.bridge.(prev := n.comm)), Called([]))
    ensures CallsOnDone(f.bridge.prev, n.comm) && n.result.None? ==> r == (f, Raised(ResultMissing))
    ensures CallsOnDone(f.bridge.prev, n.comm) && n.result.Some? && Valid(f.bridge.future) && !IsDone(f.bridge.future) ==>
              && r.0.bridge.prev == Done
              && r.1 == Called(f.bridge.future.callbacks)
              && IsDone(r.0.bridge.future)
              && (ResultOf(r.0.bridge.future) == Returns(Some(f.executed)) <==>
                    n.terminal == Succeeded && n.result.value.errorCode == SUCCESSFUL)
              && (ResultOf(r.0.bridge.future) == CancelledError <==> n.terminal in {Preempted, Recalled})
              && (ResultOf(r.0.bridge.future) ==
                    Raises(TrajectoryExecutionFailed(n.terminal, n.result.value.errorCode, f.requested, f.executed)) <==>
                    n.terminal in {Rejected, Aborted, LostGoal} ||
                    (n.terminal == Succeeded && n.result.value.errorCode != SUCCESSFUL))
  {
    var t := OnTransition(f.bridge, n, (ts, res) => TrajectoryOnDone(f.requested, f.executed, ts, res));
    (f.(bridge := t.bridge), t.effect)
  }
}

=== FILE: trajectory_util.dfy ===
/** Conversion of a densely sampled planner trajectory into the joint-trajectory
    message, and padding of a joint-trajectory message with the joints a
    controller requires. The robot model and the trajectory's configuration
    specification are not modelled: their outputs (the used DOF indices, a DOF's
    joint name, each waypoint's extracted values, a joint's current value, the
    trajectory's reported duration) are parameters. Time is an exact `real`. */
module TrajectoryUtil {
  import opened Base
  import opened Messages

  /** The conversion's default minimum time between two retained waypoints. */
  const DEFAULT_TIME_TOLERANCE: real := 0.01

  /** One source waypoint as extracted for the selected DOFs: its delta time,
      positions, velocities and accelerations, each of which may be missing. */
  datatype SourceWaypoint = SourceWaypoint(
    dt: Option<real>,
    q: Option<seq<real>>,
    qd: Option<seq<real>>,
    qdd: Option<seq<real>>)

  datatype WaypointFault = NotTimed | NoJointValues | AccelerationsWithoutVelocities

  /** Why a conversion is refused; each is an exception raised at the caller. */
  datatype ConversionError =
    | NegativeTolerance                                  // the tolerance assertion
    | EnvironmentMismatch                                // robot and trajectory differ in environment
    | InvalidWaypoint(index: nat, fault: WaypointFault)  // a malformed waypoint
    | DurationMismatch                                   // the final duration assertion

  /** The first problem of a waypoint, in the order the conversion looks for them. */
  function Fault(w: SourceWaypoint): (r: Option<WaypointFault>)
    ensures r.None? <==> w.dt.Some? && w.q.Some? && (w.qdd.Some? ==> w.qd.Some?)
    ensures r == Some(NotTimed) <==> w.dt.None?
    ensures r == Some(NoJointValues) <==> w.dt.Some? && w.q.None?
    ensures r == Some(AccelerationsWithoutVelocities) <==> w.dt.Some? && w.q.Some? && w.qdd.Some? && w.qd.None?
  {
    if w.dt.None? then Some(NotTimed)
    else if w.q.None? then Some(NoJointValues)
    else if w.qdd.Some? && w.qd.None? then Some(AccelerationsWithoutVelocities)
    else None
  }

  function Abs(x: real): real {
    if x < 0.0 then -x else x
  }

  /** The sum of the delta times of the first `n` waypoints (a missing one counts 0). */
  function Elapsed(ws: seq<SourceWaypoint>, n: nat): real
    requires n <= |ws|
  {
    if n == 0 then 0.0 else Elapsed(ws, n - 1) + ws[n - 1].dt.GetOr(0.0)
  }

  /** The cumulative time at waypoint `i`: every delta time up to and including its own. */
  function TimeAt(ws: seq<SourceWaypoint>, i: nat): real
    requires i < |ws|
  {
    Elapsed(ws, i + 1)
  }

  /** The message waypoint built from a source waypoint at time `t`; a missing
      derivative becomes an empty list. */
  function PointOf(w: SourceWaypoint, t: real): (p: JointTrajectoryPoint)
    ensures p.positions == w.q.GetOr([]) && p.timeFromStart == t
    ensures w.qd.None? ==> p.velocities == []
    ensures w.qd.Some? ==> p.velocities == w.qd.value
    ensures w.qdd.None? ==> p.accelerations == []
    ensures w.qdd.Some? ==> p.accelerations == w.qdd.value
  {
    JointTrajectoryPoint(w.q.GetOr([]), w.qd.GetOr([]), w.qdd.GetOr([]), t)
  }

  /** The message waypoints built from the waypoints at the indices `kept`, each
      at its cumulative time. */
  function PointsAt(ws: seq<SourceWaypoint>, kept: seq<nat>): seq<JointTrajectoryPoint>
    requires forall j :: 0 <= j < |kept| ==> kept[j] < |ws|
  {
    seq(|kept|, j requires 0 <= j < |kept| => PointOf(ws[kept[j]], TimeAt(ws, kept[j])))
  }

  /** Every waypoint strictly between `a` and `b` lies less than `tol` past `a`. */
  ghost predicate CloseAfter(ws: seq<SourceWaypoint>, tol: real, a: nat, b: nat)
    requires a < |ws| && b <= |ws|
    decreases b
  {
    b <= a + 1 || (CloseAfter(ws, tol, a, b - 1) && TimeAt(ws, b - 1) - TimeAt(ws, a) < tol)
  }

  lemma {:induction false} CloseAfterAt(ws: seq<SourceWaypoint>, tol: real, a: nat, b: nat, i: nat)
    requires a < |ws| && b <= |ws| && CloseAfter(ws, tol, a, b)
    requires a < i < b
    ensures TimeAt(ws, i) - TimeAt(ws, a) < tol
    decreases b
  {
    if i < b - 1 {
      CloseAfterAt(ws, tol, a, b - 1, i);
    }
  }

  /** `kept` lists the retained indices among the first `n` waypoints: the first
      waypoint is retained; a later one is retained exactly when its cumulative
      time is at least `tol` past that of the last retained waypoint. */
  ghost predicate RetainedUpTo(ws: seq<SourceWaypoint>, tol: real, kept: seq<nat>, n: nat)
    requires n <= |ws|
  {
    && (forall j :: 0 <= j < |kept| ==> kept[j] < n)
    && (forall j, k {:trigger kept[j], kept[k]} :: 0 <= j < k < |kept| ==> kept[j] < kept[k])
    && (n == 0 <==> |kept| == 0)
    && (|kept| > 0 ==> kept[0] == 0)
    // consecutive retained waypoints are at least `tol` apart, and the waypoints
    // dropped between them are less than `tol` past the earlier one
    && (forall j, k {:trigger kept[j], kept[k]} :: 0 <= j && k == j + 1 && k < |kept| ==>
          && TimeAt(ws, kept[k]) - TimeAt(ws, kept[j]) >= tol
          && CloseAfter(ws, tol, kept[j], kept[k]))
    // so are the waypoints dropped after the last retained one
    && (|kept| > 0 ==> CloseAfter(ws, tol, kept[|kept| - 1], n))
  }

  /** Dropping waypoint `i`, which lies less than `tol` past the last retained one. */
  lemma RetainedDropStep(ws: seq<SourceWaypoint>, tol: real, kept: seq<nat>, i: nat)
    requires i < |ws| && RetainedUpTo(ws, tol, kept, i) && i > 0
    requires TimeAt(ws, i) - TimeAt(ws, kept[|kept| - 1]) < tol
    ensures RetainedUpTo(ws, tol, kept, i + 1)
  {
  }

  /** Retaining waypoint `i`, the first one or one at least `tol` past the last retained one. */
  lemma RetainedKeepStep(ws: seq<SourceWaypoint>, tol: real, kept: seq<nat>, i: nat)
    requires i < |ws| && RetainedUpTo(ws, tol, kept, i)
    requires i > 0 ==> TimeAt(ws, i) - TimeAt(ws, kept[|kept| - 1]) >= tol
    ensures RetainedUpTo(ws, tol, kept + [i], i + 1)
  {
    var k2 := kept + [i];
    forall j, k | 0 <= j < k < |k2| ensures k2[j] < k2[k] {
      if k == |kept| { assert k2[j] == kept[j]; }
    }
    forall j, k | 0 <= j && k == j + 1 && k < |k2|
      ensures TimeAt(ws, k2[k]) - TimeAt(ws, k2[j]) >= tol && CloseAfter(ws, tol, k2[j], k2[k])
    {
      if k < |kept| { assert k2[j] == kept[j] && k2[k] == kept[k]; }
    }
  }

  ghost predicate Retained(ws: seq<SourceWaypoint>, tol: real, kept: seq<nat>) {
    RetainedUpTo(ws, tol, kept, |ws|)
  }

  /** The DOFs converted: all used DOFs, or those also in the caller's list. */
  function SelectDofs(used: seq<int>, filter: Option<seq<int>>): (dofs: seq<int>)
    ensures filter.None? ==> dofs == used
    ensures filter.Some? ==> NoDuplicates(dofs) && forall d :: d in dofs <==> d in used && d in filter.value
  {
    match filter
    case None => used
    case Some(allowed) => DistinctWhere(used, d => d in allowed, {})
  }

  /** The waypoint loop of the conversion. Every waypoint is checked in order,
      skipped ones included, and the first malformed one is reported with its
      index; time is integrated over all waypoints; a waypoint is dropped when its
      cumulative time is less than `tol` past the last retained one. On success it
      returns the retained message waypoints and the total time; `kept` names the
      retained indices. */
  method ConvertWaypoints(ws: seq<SourceWaypoint>, tol: real)
    returns (r: Result<(seq<JointTrajectoryPoint>, real), (nat, WaypointFault)>, ghost kept: seq<nat>)
    ensures r.Failure? ==>
              && r.error.0 < |ws|
              && Fault(ws[r.error.0]) == Some(r.error.1)
              && forall i :: 0 <= i < r.error.0 ==> Fault(ws[i]).None?
    ensures r.Success? ==>
              && (forall i :: 0 <= i < |ws| ==> Fault(ws[i]).None?)
              && r.value.1 == Elapsed(ws, |ws|)
              && Retained(ws, tol, kept)
              && |r.value.0| == |kept|
              && forall j :: 0 <= j < |kept| ==> r.value.0[j] == PointOf(ws[kept[j]], TimeAt(ws, kept[j]))
  {
    kept := [];
    var points: seq<JointTrajectoryPoint> := [];
    var time := 0.0;
    var prevTime := 0.0;
    var i: nat := 0;
    while i < |ws|
      invariant i <= |ws|
      invariant forall k :: 0 <= k < i ==> Fault(ws[k]).None?
      invariant time == Elapsed(ws, i)
      invariant RetainedUpTo(ws, tol, kept, i)
      invariant i > 0 ==> prevTime == TimeAt(ws, kept[|kept| - 1])
      invariant points == PointsAt(ws, kept)
    {
      var w := ws[i];
      var fault := Fault(w);
      if fault.Some? {
        return Failure((i, fault.value)), kept;
      }

      time := time + w.dt.value;
      assert time == TimeAt(ws, i);
      var delta := time - prevTime;
      if i > 0 && delta < tol {
        RetainedDropStep(ws, tol, kept, i);
        i := i + 1;
        continue;
      }
      RetainedKeepStep(ws, tol, kept, i);
      prevTime := time;
      points := points + [PointOf(w, time)];
      kept := kept + [i];
      i := i + 1;
    }
    r := Success((points, time));
  }

  /** Convert a source trajectory: check the tolerance and the environment, name
      the selected DOFs, run the waypoint loop, and require the integrated time to
      match the reported `duration` within `tol`. */
  method OrToRosTrajectory(sameEnvironment: bool, usedDofs: seq<int>, dofFilter: Option<seq<int>>,
                           jointName: int -> string, ws: seq<SourceWaypoint>, duration: real, tol: real)
    returns (r: Result<JointTrajectory, ConversionError>, ghost kept: seq<nat>)
    ensures tol < 0.0 ==> r == Failure(NegativeTolerance)
    ensures tol >= 0.0 && !sameEnvironment ==> r == Failure(EnvironmentMismatch)
    ensures tol >= 0.0 && sameEnvironment ==>
              ((r.Failure? && r.error.InvalidWaypoint?) <==> exists i :: 0 <= i < |ws| && Fault(ws[i]).Some?)
    ensures r.Failure? && r.error.InvalidWaypoint? ==>
              && r.error.index < |ws|
              && Fault(ws[r.error.index]) == Some(r.error.fault)
              && forall i :: 0 <= i < r.error.index ==> Fault(ws[i]).None?
    ensures tol >= 0.0 && sameEnvironment && (forall i :: 0 <= i < |ws| ==> Fault(ws[i]).None?) ==>
              (r.Success? <==> Abs(Elapsed(ws, |ws|) - duration) < tol)
    ensures tol >= 0.0 && sameEnvironment && (forall i :: 0 <= i < |ws| ==> Fault(ws[i]).None?) ==>
              (Abs(Elapsed(ws, |ws|) - duration) >= tol ==> r == Failure(DurationMismatch))
    ensures tol == 0.0 ==> r.Failure?
    ensures r.Success? ==>
              && r.value.jointNames == seq(|SelectDofs(usedDofs, dofFilter)|,
                                           k requires 0 <= k < |SelectDofs(usedDofs, dofFilter)| =>
                                             jointName(SelectDofs(usedDofs, dofFilter)[k]))
              && Retained(ws, tol, kept)
              && |r.value.points| == |kept|
              && forall j :: 0 <= j < |kept| ==> r.value.points[j] == PointOf(ws[kept[j]], TimeAt(ws, kept[j]))
  {
    kept := [];
    if tol < 0.0 {
      return Failure(NegativeTolerance), kept;
    }
    if !sameEnvironment {
      return Failure(EnvironmentMismatch), kept;
    }
    var dofs := SelectDofs(usedDofs, dofFilter);
    var names := seq(|dofs|, k requires 0 <= k < |dofs| => jointName(dofs[k]));

    var converted;
    converted, kept := ConvertWaypoints(ws, tol);
    if converted.Failure? {
      assert Fault(ws[converted.error.0]).Some?;
      return Failure(InvalidWaypoint(converted.error.0, converted.error.1)), kept;
    }
    assert !exists i :: 0 <= i < |ws| && Fault(ws[i]).Some?;
    var (points, time) := converted.value;
    if Abs(time - duration) >= tol {
      return Failure(DurationMismatch), kept;
    }
    r := Success(JointTrajectory(names, points));
  }

  /** Helper for `RetainedUnique`: two retention lists that agree before position
      `p` cannot differ first at `p` with the first one smaller, or end there. */
  lemma FirstDifference(ws: seq<SourceWaypoint>, tol: real, k1: seq<nat>, k2: seq<nat>, p: nat)
    requires Retained(ws, tol, k1) && Retained(ws, tol, k2)
    requires 0 < p < |k1|
    requires p <= |k2| && forall q :: 0 <= q < p ==> k1[q] == k2[q]
    ensures p < |k2| && k2[p] <= k1[p]
  {
    if p == |k2| || k1[p] < k2[p] {
      var i := k1[p];
      if p == |k2| {
        CloseAfterAt(ws, tol, k2[p - 1], |ws|, i);
      } else {
        CloseAfterAt(ws, tol, k2[p - 1], k2[p], i);
      }
      assert false;
    }
  }

  /** The retention conditions determine the retained waypoints: there is exactly
      one list of retained indices for a trajectory and tolerance. */
  lemma RetainedUnique(ws: seq<SourceWaypoint>, tol: real, k1: seq<nat>, k2: seq<nat>)
    requires Retained(ws, tol, k1) && Retained(ws, tol, k2)
    ensures k1 == k2
  {
    if |ws| > 0 {
      var p := 1;
      while p < |k1|
        invariant 1 <= p <= |k1| && p <= |k2|
        invariant forall q :: 0 <= q < p ==> k1[q] == k2[q]
        decreases |k1| - p
      {
        FirstDifference(ws, tol, k1, k2, p);
        FirstDifference(ws, tol, k2, k1, p);
        p := p + 1;
      }
      if |k2| > |k1| {
        FirstDifference(ws, tol, k2, k1, |k1|);
      }
    }
  }

  /** Sampled at cumulative times 0, 0.001, 0.5, 0.505 and 1.0 with the default
      tolerance, exactly the waypoints at 0, 0.5 and 1.0 are retained. */
  lemma DenseSamplesExample(kept: seq<nat>)
    requires Retained(DenseSamples(), DEFAULT_TIME_TOLERANCE, kept)
    ensures kept == [0, 2, 4]
    ensures TimeAt(DenseSamples(), 0) == 0.0 && TimeAt(DenseSamples(), 2) == 0.5
    ensures TimeAt(DenseSamples(), 4) == 1.0
  {
    var ws := DenseSamples();
    assert TimeAt(ws, 0) == 0.0;
    assert TimeAt(ws, 1) == 0.001;
    assert TimeAt(ws, 2) == 0.5;
    assert TimeAt(ws, 3) == 0.505;
    assert TimeAt(ws, 4) == 1.0;
    assert Retained(ws, DEFAULT_TIME_TOLERANCE, [0, 2, 4]);
    RetainedUnique(ws, DEFAULT_TIME_TOLERANCE, kept, [0, 2, 4]);
  }

  function DenseSamples(): seq<SourceWaypoint> {
    var w := (dt: real) => SourceWaypoint(Some(dt), Some([0.0]), None, None);
    [w(0.0), w(0.001), w(0.499), w(0.005), w(0.495)]
  }

  // ---------------------------------------------------------------------------
  // Padding

  /** The required joint names the trajectory lacks, each once. */
  function MissingNames(have: seq<string>, required: seq<string>): (missing: seq<string>)
    ensures NoDuplicates(missing)
    ensures forall n :: n in missing <==> n in required && n !in have
  {
    DistinctWhere(required, n => n !in have, {})
  }

  /** Extend a non-empty list by `extra`; leave an empty list empty. */
  function ExtendNonEmpty(xs: seq<real>, extra: seq<real>): seq<real>
  {
    if |xs| > 0 then xs + extra else xs
  }

  /** Add the missing joints to a trajectory: current values to every non-empty
      position list, zeros to every non-empty velocity and acceleration list, and
      the missing names after the existing ones. */
  function PadTrajectory(traj: JointTrajectory, required: seq<string>, currentValue: string -> real)
    : (r: JointTrajectory)
    ensures forall n :: n in r.jointNames <==> n in traj.jointNames || n in required
    ensures |traj.jointNames| <= |r.jointNames|
    ensures r.jointNames[..|traj.jointNames|] == traj.jointNames
    ensures r.jointNames[|traj.jointNames|..] == MissingNames(traj.jointNames, required)
    ensures |r.points| == |traj.points|
    ensures forall k :: 0 <= k < |traj.points| ==> PaddedPoint(traj.points[k], r.points[k],
                          MissingNames(traj.jointNames, required), currentValue)
  {
    var missing := MissingNames(traj.jointNames, required);
    var values := seq(|missing|, m requires 0 <= m < |missing| => currentValue(missing[m]));
    var zeros := seq(|missing|, m => 0.0);
    var points := seq(|traj.points|, k requires 0 <= k < |traj.points| =>
      var p := traj.points[k];
      JointTrajectoryPoint(
        ExtendNonEmpty(p.positions, values),
        ExtendNonEmpty(p.velocities, zeros),
        ExtendNonEmpty(p.accelerations, zeros),
        p.timeFromStart));
    JointTrajectory(traj.jointNames + missing, points)
  }

  /** `q` is `p` padded for `missing`: same time, and each list either empty in both
      or extended by one entry per missing joint, the current value for positions
      and zero for velocities and accelerations. */
  ghost predicate PaddedPoint(p: JointTrajectoryPoint, q: JointTrajectoryPoint,
                              missing: seq<string>, currentValue: string -> real)
  {
    && q.timeFromStart == p.timeFromStart
    && (|p.positions| == 0 ==> q.positions == [])
    && (|p.positions| > 0 ==>
          && |q.positions| == |p.positions| + |missing|
          && q.positions[..|p.positions|] == p.positions
          && forall m :: 0 <= m < |missing| ==> q.positions[|p.positions| + m] == currentValue(missing[m]))
    && (|p.velocities| == 0 ==> q.velocities == [])
    && (|p.velocities| > 0 ==>
          && |q.velocities| == |p.velocities| + |missing|
          && q.velocities[..|p.velocities|] == p.velocities
          && forall m :: |p.velocities| <= m < |q.velocities| ==> q.velocities[m] == 0.0)
    && (|p.accelerations| == 0 ==> q.accelerations == [])
    && (|p.accelerations| > 0 ==>
          && |q.accelerations| == |p.accelerations| + |missing|
          && q.accelerations[..|p.accelerations|] == p.accelerations
          && forall m :: |p.accelerations| <= m < |q.accelerations| ==> q.accelerations[m] == 0.0)
  }

  /** Padding again with the same names changes nothing: no name is missing any more. */
  lemma PadIdempotent(traj: JointTrajectory, required: seq<string>, currentValue: string -> real)
    ensures PadTrajectory(PadTrajectory(traj, required, currentValue), required, currentValue) ==
            PadTrajectory(traj, required, currentValue)
  {
    var once := PadTrajectory(traj, required, currentValue);
    DistinctWhereNone(required, n => n !in once.jointNames, {});
    var twice := PadTrajectory(once, required, currentValue);
    assert twice.jointNames == once.jointNames;
    forall k | 0 <= k < |once.points| ensures twice.points[k] == once.points[k] {
      var p := once.points[k];
      assert p.positions + [] == p.positions;
      assert p.velocities + [] == p.velocities;
      assert p.accelerations + [] == p.accelerations;
    }
  }

  /** Every non-empty list holds one value per joint. */
  ghost predicate WellFormed(traj: JointTrajectory) {
    forall k :: 0 <= k < |traj.points| ==>
      && (|traj.points[k].positions| == 0 || |traj.points[k].positions| == |traj.jointNames|)
      && (|traj.points[k].velocities| == 0 || |traj.points[k].velocities| == |traj.jointNames|)
      && (|traj.points[k].accelerations| == 0 || |traj.points[k].accelerations| == |traj.jointNames|)
  }

  /** Padding keeps every non-empty list matched to the joint names. */
  lemma PadKeepsWellFormed(traj: JointTrajectory, required: seq<string>, currentValue: string -> real)
    requires WellFormed(traj)
    ensures WellFormed(PadTrajectory(traj, required, currentValue))
  {
    var r := PadTrajectory(traj, required, currentValue);
    var missing := MissingNames(traj.jointNames, required);
    assert |r.jointNames| == |traj.jointNames| + |missing| by {
      assert r.jointNames == r.jointNames[..|traj.jointNames|] + r.jointNames[|traj.jointNames|..];
    }
    forall k | 0 <= k < |r.points|
      ensures && (|r.points[k].positions| == 0 || |r.points[k].positions| == |r.jointNames|)
              && (|r.points[k].velocities| == 0 || |r.points[k].velocities| == |r.jointNames|)
              && (|r.points[k].accelerations| == 0 || |r.points[k].accelerations| == |r.jointNames|)
    {
      assert PaddedPoint(traj.points[k], r.points[k], missing, currentValue);
    }
  }

  /** Padding joints [a, b] to [a, b, c]: the names become [a, b, c], a full
      position list gains c's current value, and empty derivative lists stay empty. */
  lemma PadExample(currentValue: string -> real)
    ensures var traj := JointTrajectory(["a", "b"], [JointTrajectoryPoint([1.0, 2.0], [], [], 0.5)]);
            PadTrajectory(traj, ["a", "b", "c"], currentValue) ==
            JointTrajectory(["a", "b", "c"], [JointTrajectoryPoint([1.0, 2.0, currentValue("c")], [], [], 0.5)])
  {
    var traj := JointTrajectory(["a", "b"], [JointTrajectoryPoint([1.0, 2.0], [], [], 0.5)]);
    var missing := MissingNames(traj.jointNames, ["a", "b", "c"]);
    assert "a" != "c" && "b" != "c";
    assert "c" in missing;
    assert missing == ["c"];
    var r := PadTrajectory(traj, ["a", "b", "c"], currentValue);
    assert r.jointNames == ["a", "b"] + ["c"];
    var q := r.points[0];
    assert PaddedPoint(traj.points[0], q, missing, currentValue);
    assert q.positions == [1.0, 2.0, currentValue("c")] by {
      assert q.positions == q.positions[..2] + [q.positions[2]];
    }
    assert r.points == [q];
  }
}

=== FILE: trigger_client.dfy ===
/** The trigger command's future: the shared transition bridge with the trigger
    done handler. A trigger carries no goal payload. */
module TriggerClient {
  import opened Base
  import opened Futures
  import opened ActionBridge

  /** The trigger action result. */
  datatype TriggerResult = TriggerResult(success: bool, message: string)

  /** The failure exception: the terminal state and success flag its message names. */
  datatype TriggerFailed = TriggerFailed(terminal: TerminalState, success: bool)

  type TriggerFuture<C> = Bridge<TriggerResult, TriggerFailed, C>

  /** A trigger future starts pending, with PENDING as its last comm-state. */
  function NewTriggerFuture<C(==)>(): (f: TriggerFuture<C>)
    ensures f.prev == Pending
    ensures ResultOf(f.future) == TimedOut && Valid(f.future) && f.future.callbacks == []
  {
    NewBridge()
  }

  /** The terminal states the trigger and set-position handlers read as a
      cooperative cancellation. */
  predicate CancelledEnding(ts: TerminalState) {
    ts == Rejected || ts == Recalled || ts == Preempted
  }

  /** The trigger done handler: success only for SUCCEEDED with the success flag
      set, cancellation for REJECTED, RECALLED and PREEMPTED, failure otherwise. */
  function TriggerOnDone(ts: TerminalState, res: TriggerResult): (h: Handling<TriggerResult, TriggerFailed>)
    ensures !h.Crash?
    ensures h.Deliver? <==> ts == Succeeded && res.success
    ensures h.Deliver? ==> h.value == res
    ensures h.Cancel? <==> ts in {Rejected, Recalled, Preempted}
    ensures h.Fail? <==> ts in {Succeeded, Aborted, LostGoal} && !(ts == Succeeded && res.success)
    ensures h.Fail? ==> h.error == TriggerFailed(ts, res.success)
  {
    var failure := TriggerFailed(ts, res.success);
    if ts == Succeeded then
      if res.success then Deliver(res) else Fail(failure)
    else if CancelledEnding(ts) then Cancel
    else Fail(failure)
  }

  /** The handler as written: it builds the failure exception before classifying,
      passing the message alone to a constructor that also demands the requested
      and executed payloads, so every call raises before any outcome is set. */
  function TriggerOnDoneAsWritten(ts: TerminalState, res: TriggerResult): (h: Handling<TriggerResult, TriggerFailed>)
    ensures h.Crash? && h.fault == ExceptionArity
  {
    Crash(ExceptionArity)
  }

  /** With the handler as written, no notification stream ever resolves a pending
      trigger future: every change into DONE raises instead. */
  lemma {:induction false} TriggerAsWrittenNeverResolves<C>(f: TriggerFuture<C>, ns: seq<Notification<TriggerResult>>)
    requires !IsDone(f.future)
    ensures !IsDone(RunBridge(f, ns, TriggerOnDoneAsWritten).bridge.future)
    ensures RunBridge(f, ns, TriggerOnDoneAsWritten).faults == RunBridge(f, ns, TriggerOnDoneAsWritten).onDoneCalls
    decreases |ns|
  {
    if |ns| > 0 {
      var t := OnTransition(f, ns[0], TriggerOnDoneAsWritten);
      TriggerAsWrittenNeverResolves(t.bridge, ns[1..]);
    }
  }

  /** The trigger transition callback, with the corrected handler. */
  function TriggerOnTransition<C>(f: TriggerFuture<C>, n: Notification<TriggerResult>): (r: Transition<TriggerResult, TriggerFailed, C>)
    ensures !CallsOnDone(f.prev, n.comm) ==> r == Transition(f.(prev := n.comm), Called([]))
    ensures CallsOnDone(f.prev, n.comm) && n.result.None? ==> r == Transition(f, Raised(ResultMissing))
    ensures CallsOnDone(f.prev, n.comm) && n.result.Some? && Valid(f.future) && !IsDone(f.future) ==>
              && r.bridge.prev == Done
              && r.effect == Called(f.future.callbacks)
              && IsDone(r.bridge.future)
              && (ResultOf(r.bridge.future) == Returns(Some(n.result.value)) <==>
                    n.terminal == Succeeded && n.result.value.success)
              && (ResultOf(r.bridge.future) == CancelledError <==> CancelledEnding(n.terminal))
              && (ResultOf(r.bridge.future) == Raises(TriggerFailed(n.terminal, n.result.value.success)) <==>
                    !(n.terminal == Succeeded && n.result.value.success) && !CancelledEnding(n.terminal))
  {
    OnTransition(f, n, TriggerOnDone)
  }

  /** A notification stream in which DONE is final and carries a result resolves a
      fresh trigger future exactly when it reports DONE, and never raises. */
  lemma TriggerResolvesOnce<C>(ns: seq<Notification<TriggerResult>>)
    requires DoneIsFinal(ns)
    requires forall i :: 0 <= i < |ns| && ns[i].comm == Done ==> ns[i].result.Some?
    ensures RunBridge(NewTriggerFuture<C>(), ns, TriggerOnDone).faults == 0
    ensures IsDone(RunBridge(NewTriggerFuture<C>(), ns, TriggerOnDone).bridge.future) <==> Done in Comms(ns)
  {
    ResolvesExactlyOnce(NewTriggerFuture<C>(), ns, TriggerOnDone);
  }
}
